=== FILE: README.md ===
# service-tools in Dafny

A model of the core of `itmh/service-tools`. This PHP library wraps remote back ends (SOAP, LDAP) behind one dispatcher. A call to any undeclared method on a service:

- derives a cache key from the method name and the arguments as given;
- lets the concrete service rewrite the arguments;
- refuses to run before `configure` has succeeded;
- answers from the cache when it can, and otherwise runs the service's `implementation` and stores the envelope it returns.

Every answer is a `Response` envelope. Both of its factories refuse a body in which a closure is reachable through arrays. A small helper measures calls with the pinba extension when that extension is present.

The model covers:

- the current dispatcher, envelope, timer helper, SOAP service and LDAP service;
- the legacy envelope, timer helper and LDAP service of the older `ServiceTools` namespace.

## Structure

| file | module | what it holds |
|---|---|---|
| outcomes.dfy | `Outcomes` | `Option`, the exception classes that cross the core's boundary, `Result`, `Status` |
| php_values.dfy | `PhpValues` | PHP values and ordered arrays, `array_key_exists`, assignment, truthiness, `filter_var` boolean, `is_numeric` |
| array_merge.dfy | `ArrayMerge` | `array_merge` and `array_unshift` with their renumbering laws |
| serialization.dfy | `Serialization` | the envelope's closure walk, what `serialize` accepts, and how they relate |
| responses.dfy, legacy_responses.dfy | `Responses`, `LegacyResponses` | the two envelopes |
| pinba.dfy, legacy_pinba.dfy | `Pinba`, `LegacyPinba` | the two timer helpers |
| service.dfy | `Service` | the dispatcher as a state transition over an abstract back end |
| soap_service.dfy, ldap_service.dfy, legacy_ldap_service.dfy | `SoapService`, `LdapService`, `LegacyLdapService` | the concrete services |

### Modelling choices

- **PHP exceptions.** These are values of `Outcomes.Exception`. `FatalError` stands for PHP's `\Error` hierarchy, which `catch (\Exception $e)` does not catch.
- **Results and state.** An operation that may throw returns a `Result` or a `Status`. Fields set before a throw stay set, so `configure` returns the new state together with its `Status`.
- **The dispatcher.** `Service.State<B>` is generic over the back end's fields `B`. `Service.Hooks` carries the class name, the digest function that stands for `md5(serialize(...))`, and the `createArgs` and `implementation` overrides.
- **The call trace.** `backendCalls` records every invocation of the implementation, so "the implementation is not invoked" can be stated.
- **Collaborators are parameters.** These are the SOAP client and its mappers, the LDAP extension functions, the pinba functions, and the store that a cacher object or a driver list stands for (`storeOf`).

## Model

| member | source | states |
|---|---|---|
| Service.Initial | src/ITMH/ServiceTools/Core/Service.php:59-70 | a new service is not configured, its in-memory pool is empty, it has no lifetimes, and its timer helper is a new, unconfigured one, enabled exactly when the extension is loaded and switched on |
| Service.IsConfigured | src/ITMH/ServiceTools/Core/Service.php:360-363 | a pure read of the flag `configure` sets |
| Service.IdentityArgs | src/ITMH/ServiceTools/Core/Service.php:335-338 | the base argument hook returns the arguments unchanged |
| Service.NotConfiguredMessage | src/ITMH/ServiceTools/Core/Service.php:23 | the message is `Service "`, then exactly the class name, then `" is not configured` |
| Service.Ttl | src/ITMH/ServiceTools/Core/Service.php:303-308 | the lifetime is the method's own entry, else the `default` entry, else 0 |
| Service.Call | src/ITMH/ServiceTools/Core/Service.php:270-326 | a call whose arguments hold a closure raises serialize's exception with nothing changed; a call never changes the configured flag, the lifetimes or the timer helper; a successful call that did not invoke the implementation changes nothing; at most one invocation is appended to the trace |
| Service.KeyIgnoresClassAndArgumentHook | src/ITMH/ServiceTools/Core/Service.php:272-278 | the key is the digest of `[method, args]` as the caller gave them; the class name and the argument hook do not affect it |
| Service.UnconfiguredCallRaises | src/ITMH/ServiceTools/Core/Service.php:287 | on an unconfigured service, a call that gets past the key and the argument hook raises the not-configured error with the class name; the cache, the state and the implementation are untouched |
| Service.ArgumentErrorsComeFirst | src/ITMH/ServiceTools/Core/Service.php:278-287 | an error from the argument hook is raised before the configuration check |
| Service.CacheHit | src/ITMH/ServiceTools/Core/Service.php:289-298 | a cached key returns the stored envelope unchanged, does not invoke the implementation and changes nothing |
| Service.CacheMiss | src/ITMH/ServiceTools/Core/Service.php:299-310 | a missing key invokes the implementation exactly once with the rewritten arguments; its envelope, a failure one included, is returned and stored under the key of the original arguments with the method's lifetime |
| Service.SecondCallHits | src/ITMH/ServiceTools/Core/Service.php:289-310 | repeating a call that produced an envelope returns the same envelope without invoking the implementation again |
| Service.CallKeepsCacheValid | src/ITMH/ServiceTools/Core/Service.php:301-309 | if every stored envelope passed the closure check, that still holds after a call |
| Service.ConfigureCacher | src/ITMH/ServiceTools/Core/Service.php:171-204 | without a `cacher` option nothing changes; the lifetimes are replaced wholesale exactly when `cacher` is an array whose `expires` is an array |
| Service.ConfigurePinba | src/ITMH/ServiceTools/Core/Service.php:249-256 | with a `pinba` option the helper is configured with the whole configuration and its error is raised; without one nothing changes |
| Service.Configure | src/ITMH/ServiceTools/Core/Service.php:155-164 | with driver and handler construction taken as infallible, configuring succeeds unless a `pinba` option meets a top-level `type` or `target`; success leaves the service configured; a throw leaves the flag as it was; either way the cache and lifetimes are those the cacher step produced, so a throw from the timer helper keeps them |
| Service.ConfiguredStaysConfigured | src/ITMH/ServiceTools/Core/Service.php:155-164 | once configured, no sequence of configurations unconfigures the service |
| Service.ConfiguredPinbaHasNoTarget | src/ITMH/ServiceTools/Core/Service.php:249-256 | after a successful configuration with a `pinba` option, the helper is configured and holds neither a `type` nor a `target` |
| Service.CacherConfigsConfigure | tests/unit/ServiceTools/ServiceCacherConfigTest.php:17-61 | a driver list with an `expires` array, and a pool object, both configure the service and install the corresponding store and lifetimes |
| Responses.Construct | src/ITMH/ServiceTools/Core/Response.php:54-64 | construction succeeds exactly for bodies that pass the closure check, and otherwise raises `ErrorException` with the fixed message |
| Responses.Success | src/ITMH/ServiceTools/Core/Response.php:97-100 | refused exactly when a closure is reachable from the body through arrays; otherwise ok, content is the body, error and code are null |
| Responses.Failure | src/ITMH/ServiceTools/Core/Response.php:112-115 | the same refusal; otherwise not ok, with the given body, message and code |
| Responses.IsOk | src/ITMH/ServiceTools/Core/Response.php:122-125 | a pure read of the success flag set at construction |
| Responses.GetContent | src/ITMH/ServiceTools/Core/Response.php:132-135 | a pure read of the body set at construction |
| Responses.GetError | src/ITMH/ServiceTools/Core/Response.php:142-145 | a pure read of the error message set at construction |
| Responses.GetErrorCode | src/ITMH/ServiceTools/Core/Response.php:152-155 | a pure read of the error code set at construction |
| Responses.FactoriesAgreeOnBodies | src/ITMH/ServiceTools/Core/Response.php:97-115 | both factories accept exactly the same bodies |
| Responses.NestedClosureRefused | src/ITMH/ServiceTools/Core/Response.php:74-87 | a closure two arrays deep is refused by both factories |
| Serialization.IsSerializable | src/ITMH/ServiceTools/Core/Response.php:74-87 | a closure fails, any other non-array value passes, objects included, and a passing array has only passing entries |
| Serialization.SerializableIffNoReachableClosure | src/ITMH/ServiceTools/Core/Response.php:74-87 | the walk passes a body exactly when no path through arrays leads to a closure |
| Serialization.ObjectsAreLeaves | src/ITMH/ServiceTools/Core/Response.php:77-84 | a closure in an object's properties is not inspected, while the same closure in an array is |
| Serialization.SerializeAcceptsPassesCheck | src/ITMH/ServiceTools/Core/Service.php:272 | every value `serialize` accepts passes the envelope check |
| Serialization.CheckWeakerThanSerialize | src/ITMH/ServiceTools/Core/Response.php:74-87 | an object holding a closure passes the envelope check although `serialize` refuses it |
| LegacyResponses.Construct | src/ServiceTools/Core/Response.php:45-53 | the legacy constructor succeeds exactly for bodies that pass the check |
| LegacyResponses.Success | src/ServiceTools/Core/Response.php:83-86 | refused exactly when a closure is reachable through arrays; otherwise ok, content is the body, error is null |
| LegacyResponses.Failure | src/ServiceTools/Core/Response.php:96-99 | the same refusal; otherwise not ok, with the given body and error |
| LegacyResponses.IsOk | src/ServiceTools/Core/Response.php:106-109 | a pure read of the success flag set at construction |
| LegacyResponses.GetContent | src/ServiceTools/Core/Response.php:116-119 | a pure read of the body set at construction |
| LegacyResponses.GetError | src/ServiceTools/Core/Response.php:126-129 | a pure read of the error set at construction |
| LegacyResponses.LegacyObjectsAreLeaves | src/ServiceTools/Core/Response.php:63-74 | an object body holding a closure passes; the closure itself is refused |
| Pinba.New | src/ITMH/ServiceTools/Helpers/Pinba.php:41-44 | the helper is enabled exactly when the extension is loaded and its ini switch is truthy; it starts unconfigured |
| Pinba.IsConfigured | src/ITMH/ServiceTools/Helpers/Pinba.php:72-75 | a pure read of the flag `configure` sets |
| Pinba.Configure | src/ITMH/ServiceTools/Helpers/Pinba.php:54-65 | a configuration containing `type` is refused with `Type required`; else one containing `target` is refused with `Target host name required`; otherwise it is stored, the helper becomes configured and availability is unchanged |
| Pinba.Start | src/ITMH/ServiceTools/Helpers/Pinba.php:85-97 | a disabled helper returns null |
| Pinba.Stop | src/ITMH/ServiceTools/Helpers/Pinba.php:117-126 | true unless the handle is a resource and the helper is enabled, in which case the extension's answer |
| Pinba.Info | src/ITMH/ServiceTools/Helpers/Pinba.php:135-144 | an empty array unless the handle is a resource and the helper is enabled, in which case the extension's answer |
| Pinba.DisabledIsNoOp | src/ITMH/ServiceTools/Helpers/Pinba.php:85-139 | a disabled helper gives the same results whatever the extension does; the handle `start` returns makes `stop` true and `info` empty |
| Pinba.EnabledIsFixed | src/ITMH/ServiceTools/Helpers/Pinba.php:41-65 | no sequence of configurations changes availability |
| Pinba.ConfiguredHasNoTypeOrTarget | src/ITMH/ServiceTools/Helpers/Pinba.php:54-97 | an enabled, configured helper always starts its timer with a null type and a null target |
| LegacyPinba.New | src/ServiceTools/Helpers/Pinba.php:21-24 | availability is the extension being loaded and its ini switch truthy |
| LegacyPinba.Start | src/ServiceTools/Helpers/Pinba.php:36-48 | null when disabled; otherwise the extension's timer for the given type, target and tags |
| LegacyPinba.Stop | src/ServiceTools/Helpers/Pinba.php:68-77 | true for a non-resource handle or a disabled helper; the same guard as the current helper |
| LegacyPinba.Info | src/ServiceTools/Helpers/Pinba.php:86-95 | an empty array for a non-resource handle or a disabled helper; the same guard as the current helper |
| LegacyPinba.LegacyDisabledIsNoOp | tests/unit/ServiceTools/ServiceTest.php:90-108 | a disabled helper returns a null timer, and stopping and inspecting it give true and an array |
| SoapService.InitialBackend | src/ITMH/ServiceTools/Services/SoapService.php:26-49 | no client, four empty mapper tables, no default arguments |
| SoapService.SelectMode | src/ITMH/ServiceTools/Services/SoapService.php:140-166 | strict array (method or `*`) beats array (method or `*`), which beats strict class, which beats class; with no table listing the method the result stays raw |
| SoapService.ModePrecedence | src/ITMH/ServiceTools/Services/SoapService.php:144-163 | the precedence in the cases where several tables list the method |
| SoapService.SelectModeFollowsSource | src/ITMH/ServiceTools/Services/SoapService.php:140-167 | the precedence chain equals the source's sequence of four overwriting checks, for every mapping and method |
| SoapService.Map | src/ITMH/ServiceTools/Services/SoapService.php:138-172 | with a client: the selected mode decides between the raw result, `asClass` with the selected class map and `asArray` with the strict flag, on the client as updated; the client ends in strict mapping exactly when it was already strict or the strict table lists the method; without a client, touching the strict table or any non-raw mode is a fatal error |
| SoapService.StrictMappingIsSticky | src/ITMH/ServiceTools/Services/SoapService.php:147-150 | once strict, a call never switches the client back |
| SoapService.Caught | src/ITMH/ServiceTools/Services/SoapService.php:126-128 | a `SoapFault` becomes a failure envelope with no body, the fault's message and no code; any other throw escapes |
| SoapService.RemoteCall | src/ITMH/ServiceTools/Services/SoapService.php:122 | the client's method runs with the arguments; with no client the callback is rejected and the result is null |
| SoapService.Implementation | src/ITMH/ServiceTools/Services/SoapService.php:119-129 | a call error and a mapping error each go through the `SoapFault` catch, so a fault becomes a failure envelope with its message and any other throw escapes as itself; a mapped result goes to `Response::success`; no `SoapFault` escapes |
| SoapService.RawCallEnvelopes | src/ITMH/ServiceTools/Services/SoapService.php:119-129 | for an unmapped method: a serialisable result gives the success envelope holding it, a non-serialisable one raises the envelope's error, a fault gives the failure envelope with its message, any other throw escapes |
| SoapService.CreateArgs | src/ITMH/ServiceTools/Services/SoapService.php:181-192 | without defaults the arguments pass unchanged; with defaults a first positional argument replaces the list and is merged over the defaults; a non-array there is a fatal error |
| SoapService.DefaultsMerge | src/ITMH/ServiceTools/Services/SoapService.php:181-192 | when the first argument is an array of named arguments: a named argument overrides the default, other defaults remain, and positional entries are the defaults' followed by the caller's, renumbered from 0 |
| SoapService.WithPinbaDefault | src/ITMH/ServiceTools/Services/SoapService.php:100-105 | a configuration without a `pinba` option gains `{type: soap, target: url}` at the end; nothing else changes |
| SoapService.ConfigureMapping | src/ITMH/ServiceTools/Services/SoapService.php:87-98 | each mapper option present replaces its table; absent ones keep it |
| SoapService.Configure | src/ITMH/ServiceTools/Services/SoapService.php:58-108 | success exactly when `url` is present, the client can be built, `defaultArgs` is absent or an array, and there is no top-level `type` or `target`; without `url` nothing changes; a non-array `defaultArgs` raises its error and leaves the flag unchanged; success leaves a fresh non-strict client, the given `defaultArgs` (or the old ones when absent) and the updated tables |
| SoapService.Finish | src/ITMH/ServiceTools/Services/SoapService.php:87-107 | the tables are updated; the base class succeeds exactly when the configuration has no top-level `type` or `target` |
| SoapService.PinbaDefaultKeepsTopLevel | src/ITMH/ServiceTools/Services/SoapService.php:100-105 | adding the timer default changes neither a top-level `type` nor a top-level `target` |
| SoapService.Hooks | src/ITMH/ServiceTools/Services/SoapService.php:119-192 | the dispatcher runs this service's argument hook and implementation |
| SoapService.ConfigureKeepsClientInvariant | src/ITMH/ServiceTools/Services/SoapService.php:69-107 | a configured SOAP service always has a client after any configuration |
| SoapService.CallKeepsClientInvariant | src/ITMH/ServiceTools/Services/SoapService.php:119-129 | a configured SOAP service still has a client after any call |
| SoapService.NoWsdlRaises | tests/unit/ServiceTools/SoapServiceTest.php:11-18 | configuring a new service with nothing raises the url error and leaves it unconfigured |
| SoapService.PinbaDefaultIsNeverRead | src/ITMH/ServiceTools/Services/SoapService.php:100-107 | after a successful configuration the timer helper holds the whole configuration, default included, with no top-level `type` or `target`, so the `soap` default is never read |
| LdapService.InitialBackend | src/ITMH/ServiceTools/Services/LdapService.php:70-76 | port and connection null, read-only off |
| LdapService.CheckOptions | src/ITMH/ServiceTools/Services/LdapService.php:88-109 | host first; port only if present and numeric; read-only filtered when present; unless read-only, login then password required |
| LdapService.BindFor | src/ITMH/ServiceTools/Services/LdapService.php:117-125 | anonymous exactly in read-only mode; otherwise the configured login and password |
| LdapService.Connect | src/ITMH/ServiceTools/Services/LdapService.php:111-130 | a falsy connection raises the connect error; a falsy bind sets the connection to false and raises the bind error; success keeps the connection |
| LdapService.Configure | src/ITMH/ServiceTools/Services/LdapService.php:86-133 | option errors, then connection errors, each leaving the configured flag unchanged; once the checks pass and the bind succeeds, the base class is configured with the new connection; success leaves the service configured with a truthy connection |
| LdapService.Implementation | src/ITMH/ServiceTools/Services/LdapService.php:143-153 | `ldap_<method>` runs with the connection prepended; a serialisable result gives the success envelope holding it; a non-serialisable one gives the failure envelope with the envelope's message; an exception gives the failure envelope with its message; only a fatal error escapes |
| LdapService.Caught | src/ITMH/ServiceTools/Services/LdapService.php:150-152 | every `\Exception` becomes a failure envelope with its message; a fatal error escapes |
| LdapService.Hooks | src/ITMH/ServiceTools/Services/LdapService.php:143-153 | the dispatcher passes arguments unchanged and runs this implementation |
| LdapService.ConnectionComesFirst | src/ITMH/ServiceTools/Services/LdapService.php:145 | the connection is positional argument 0 and the caller's positional arguments follow, renumbered from 1; named ones are kept |
| LdapService.ReadOnlySkipsCredentials | src/ITMH/ServiceTools/Services/LdapService.php:95-109 | a truthy read-only string needs no credentials and binds anonymously |
| LdapService.MissingLoginReportedFirst | src/ITMH/ServiceTools/Services/LdapService.php:101-106 | a bare host without the read-only flag is refused for the missing login |
| LdapService.FailedBindKeepsConfiguredFlag | src/ITMH/ServiceTools/Services/LdapService.php:127-130 | a failed re-configuration leaves an already configured service configured, with `false` as its connection |
| LdapService.OnlyFatalErrorsEscape | src/ITMH/ServiceTools/Services/LdapService.php:146-152 | on a configured service, a call never raises when the extension raises only exceptions |
| LegacyLdapService.InitialBackend | src/ServiceTools/Services/LdapService.php:25-28 | the port starts at 389 |
| LegacyLdapService.CheckOptions | src/ServiceTools/Services/LdapService.php:41-60 | the same checks in the same order as the current service, with the legacy messages |
| LegacyLdapService.Connect | src/ServiceTools/Services/LdapService.php:62-81 | the current service's connection outcome, with every error re-thrown as a plain `Exception` carrying the legacy message |
| LegacyLdapService.Rethrown | src/ServiceTools/Services/LdapService.php:79-81 | an exception becomes a plain `Exception` with the same message |
| LegacyLdapService.Configure | src/ServiceTools/Services/LdapService.php:38-84 | a failed option check is returned as it is, with the port and read-only updates made before it; past the checks the outcome is the connect step's, its plain errors and the `false` connection after a failed bind included; the base class is reached exactly when the checks pass and the connection binds, and then with a truthy connection |
| LegacyLdapService.Implementation | src/ServiceTools/Services/LdapService.php:94-103 | the method name itself runs with the connection prepended; a serialisable result gives the success envelope, a non-serialisable one the failure envelope with the envelope's message, an exception the failure envelope with its message; only a fatal error escapes |
| LegacyLdapService.Caught | src/ServiceTools/Services/LdapService.php:100-102 | every `\Exception` becomes a legacy failure envelope with its message |
| LegacyLdapService.LegacyCallsMethodVerbatim | src/ServiceTools/Services/LdapService.php:98 | the legacy service calling `ldap_foo` by name behaves like the current service calling `foo` |
| LegacyLdapService.ConnectErrorsArePlain | src/ServiceTools/Services/LdapService.php:62-81 | past the option checks, configuration raises only the plain connect or bind exception |
| ArrayMerge.MergeInts | src/ITMH/ServiceTools/Services/SoapService.php:188 | `array_merge` keeps keys unique; its positional entries are those of both arrays in order, renumbered from 0 |
| ArrayMerge.MergeStr | src/ITMH/ServiceTools/Services/SoapService.php:188 | a named key takes the later array's value when it has one, else the earlier's |
| ArrayMerge.MergeEmptyLeft | src/ITMH/ServiceTools/Services/SoapService.php:188 | merging a list numbered from 0 onto nothing gives the list back |
| ArrayMerge.UnshiftSpec | src/ITMH/ServiceTools/Services/LdapService.php:145 | `array_unshift` puts the value at position 0, renumbers the positional entries from 1 and keeps named ones |
| PhpValues.Lookup | src/ITMH/ServiceTools/Core/Service.php:173-177 | a key is found exactly when `array_key_exists` holds, and the value found is stored under it |
| PhpValues.Put | src/ITMH/ServiceTools/Services/SoapService.php:101-104 | assignment makes the key hold the value, leaves other keys alone, and appends a new key at the end |
| PhpValues.NumericAcceptsPort | src/ITMH/ServiceTools/Services/LdapService.php:91-93 | `"389"` and `0` are numeric ports |
| PhpValues.NumericAcceptsSignedExponent | src/ITMH/ServiceTools/Services/LdapService.php:91-93 | leading blanks, a sign, a fraction and an exponent are accepted |
| PhpValues.NumericRejectsTrailingBlank | src/ITMH/ServiceTools/Services/LdapService.php:91-93 | a trailing blank makes a string non-numeric |
| PhpValues.NumericRejectsNonNumbers | src/ITMH/ServiceTools/Services/LdapService.php:91-93 | words, a lone dot, booleans and null are not numeric |
| PhpValues.FilterBoolAccepts | src/ITMH/ServiceTools/Services/LdapService.php:95-100 | `" Yes "`, `"TRUE"` and `1` filter to true |
| PhpValues.FilterBoolRejects | src/ITMH/ServiceTools/Services/LdapService.php:95-100 | `"no"`, `"maybe"`, `2` and null filter to false rather than failing |
| PhpValues.FilterBoolWords | src/ITMH/ServiceTools/Services/LdapService.php:95-100 | `yes`, `on`, `true` and `1` filter to true |

## Left out

- Logging (Monolog): the logger's construction from options and every log message. One effect is kept. When the SOAP argument merge yields null, `__call` passes it to the logger's array parameter, which is a fatal error; `SoapService.CreateArgs` returns that error.
- Timer bracketing inside `__call` (`pinba->start` before the configuration check, `stop`/`info` after): the timer's effects are the extension's. The helper itself is modelled.
- Stash: driver instantiation from class names, the composite driver, and lifetime expiry. There is no clock. The lifetime is stored with each entry but nothing evicts entries. Whatever store a pool object or a driver list stands for is the parameter `storeOf`.
- `md5` and `serialize`: the digest is a function parameter. Of `serialize`, only its refusal of closures is modelled.
- The default-config helpers `getDefaultCacherConfig` / `getDefaultLoggerConfig`: they are constant configurations with no logic.
- The Yii adapter: framework glue that creates and configures a service lazily.
- The `Configurable` interfaces: they declare `configure` / `isConfigured` only. Every modelled class has both as functions; no trait is declared.
- The legacy base `Service` class (src/ServiceTools/Core/Service.php) is not part of this model. `LegacyLdapService.Configure` therefore ends where that class's `configure` is entered.
- Floats and PHP's normalisation of numeric-string keys (`"5"` as key 5). Method names are used as string keys.
- `array_key_exists` on objects (allowed by PHP 5 and 7): a mapper table that is an object lists nothing in `SoapService.Lists`.
- Warnings PHP emits without throwing, such as `ldap_bind` on bad credentials or a call with an invalid callback. An error handler that turns warnings into exceptions is not modelled.
- Concurrency: concurrent calls sharing one pool.
- Pinba.Start: states only the disabled path. The enabled path returns whatever the extension returns for the configured type and target; `Pinba.ConfiguredHasNoTypeOrTarget` covers it for configured helpers.
- Service.Configure: building a Stash driver (`new $driverConfig['class']`) or a log handler (`new $handlerConfig['class']`) is taken never to fail, because class loading is outside the model; in PHP an unknown class aborts `configure` before the flag is set, which the success condition does not cover.

=== FILE: array_merge.dfy ===
/** PHP `array_merge` and `array_unshift` over ordered arrays: string keys of
    a later array overwrite earlier ones in place, integer keys are appended
    and renumbered from zero in order of appearance. */
module ArrayMerge {
  import opened Outcomes
  import opened PhpValues

  /** The integer-keyed entries of `a`, in order. */
  function Ints(a: PhpArray): PhpArray {
    if |a| == 0 then []
    else (if a[0].0.IntKey? then [a[0]] else []) + Ints(a[1..])
  }

  /** `s` with its keys replaced by `from`, `from + 1`, … in order. */
  function NumberedFrom(s: PhpArray, from: int): (r: PhpArray)
    ensures |r| == |s|
    decreases |s|
  {
    if |s| == 0 then [] else [(IntKey(from), s[0].1)] + NumberedFrom(s[1..], from + 1)
  }

  lemma {:induction false} NumberedFromAt(s: PhpArray, from: int, i: nat)
    requires i < |s|
    ensures NumberedFrom(s, from)[i] == (IntKey(from + i), s[i].1)
    decreases i
  {
    if i > 0 {
      NumberedFromAt(s[1..], from + 1, i - 1);
    }
  }

  /** The integer keys of `a` are exactly 0, 1, …, in order. */
  predicate Numbered(a: PhpArray) {
    Ints(a) == NumberedFrom(Ints(a), 0)
  }

  /** Folds the entries of `src` into `acc` the way `array_merge` does. */
  function MergeInto(acc: PhpArray, src: PhpArray): PhpArray
    decreases |src|
  {
    if |src| == 0 then acc
    else
      var acc' :=
        if src[0].0.IntKey? then acc + [(IntKey(|Ints(acc)|), src[0].1)]
        else Put(acc, src[0].0, src[0].1);
      MergeInto(acc', src[1..])
  }

  /** `array_merge($a, $b)`. */
  function Merge(a: PhpArray, b: PhpArray): PhpArray {
    MergeInto(MergeInto([], a), b)
  }

  /** `array_unshift($a, $v)`: `$v` becomes entry 0, integer keys of `$a`
      are renumbered after it, string keys are kept. */
  function Unshift(a: PhpArray, v: Value): PhpArray {
    Merge([(IntKey(0), v)], a)
  }

  lemma {:induction false} IntsAppend(a: PhpArray, b: PhpArray)
    ensures Ints(a + b) == Ints(a) + Ints(b)
    decreases |a|
  {
    if |a| == 0 {
      assert a + b == b;
    } else {
      var head: PhpArray := if a[0].0.IntKey? then [a[0]] else [];
      assert (a + b)[0] == a[0];
      assert (a + b)[1..] == a[1..] + b;
      assert Ints(a + b) == head + Ints(a[1..] + b);
      assert Ints(a) == head + Ints(a[1..]);
      IntsAppend(a[1..], b);
    }
  }

  lemma {:induction false} IntsPutStr(a: PhpArray, k: Key, v: Value)
    requires k.StrKey?
    ensures Ints(Put(a, k, v)) == Ints(a)
    decreases |a|
  {
    if |a| == 0 {
    } else if a[0].0 == k {
      assert ([(k, v)] + a[1..])[1..] == a[1..];
    } else {
      var r := [a[0]] + Put(a[1..], k, v);
      assert r[1..] == Put(a[1..], k, v);
      IntsPutStr(a[1..], k, v);
    }
  }

  lemma {:induction false} IntsMember(a: PhpArray, i: nat)
    requires i < |a| && a[i].0.IntKey?
    ensures a[i] in Ints(a)
    decreases |a|
  {
    if i > 0 {
      IntsMember(a[1..], i - 1);
    }
  }

  lemma {:induction false} IntsAreInts(a: PhpArray)
    ensures forall e :: e in Ints(a) ==> e.0.IntKey? && e in a
    decreases |a|
  {
    if |a| > 0 {
      IntsAreInts(a[1..]);
    }
  }

  /** In a numbered array the next integer key is free. */
  lemma NextIndexFree(acc: PhpArray)
    requires Numbered(acc)
    ensures forall i :: 0 <= i < |acc| ==> acc[i].0 != IntKey(|Ints(acc)|)
  {
    forall i | 0 <= i < |acc|
      ensures acc[i].0 != IntKey(|Ints(acc)|)
    {
      if acc[i].0.IntKey? {
        IntsMember(acc, i);
        var j :| 0 <= j < |Ints(acc)| && Ints(acc)[j] == acc[i];
        NumberedFromAt(Ints(acc), 0, j);
      }
    }
  }

  /** Replacing an existing key keeps every key where it was. */
  lemma {:induction false} PutExistingKeys(a: PhpArray, k: Key, v: Value)
    requires HasKey(a, k)
    ensures |Put(a, k, v)| == |a|
    ensures forall i :: 0 <= i < |a| ==> Put(a, k, v)[i].0 == a[i].0
    decreases |a|
  {
    if a[0].0 != k {
      LookupTail(a, k);
      PutExistingKeys(a[1..], k, v);
      var r := Put(a, k, v);
      assert r == [a[0]] + Put(a[1..], k, v);
      forall i | 0 < i < |a|
        ensures r[i].0 == a[i].0
      {
        assert r[i] == Put(a[1..], k, v)[i - 1];
      }
    }
  }

  lemma PutKeepsUnique(a: PhpArray, k: Key, v: Value)
    requires UniqueKeys(a)
    ensures UniqueKeys(Put(a, k, v))
  {
    if HasKey(a, k) {
      PutExistingKeys(a, k, v);
    } else {
      var r := Put(a, k, v);
      assert r == a + [(k, v)];
      forall i, j | 0 <= i < j < |r|
        ensures r[i].0 != r[j].0
      {
        if j == |a| {
          assert r[i] == a[i];
          assert a[i].0 != k;
        }
      }
    }
  }

  /** Appending the next integer key keeps an array numbered and its keys
      distinct. */
  lemma AppendNextInt(acc: PhpArray, v: Value)
    requires Numbered(acc) && UniqueKeys(acc)
    ensures Ints(acc + [(IntKey(|Ints(acc)|), v)]) == Ints(acc) + [(IntKey(|Ints(acc)|), v)]
    ensures Numbered(acc + [(IntKey(|Ints(acc)|), v)])
    ensures UniqueKeys(acc + [(IntKey(|Ints(acc)|), v)])
  {
    var n := |Ints(acc)|;
    var e: PhpArray := [(IntKey(n), v)];
    var acc' := acc + e;
    IntsAppend(acc, e);
    assert Ints(e) == e;
    NumberedFromAppend(Ints(acc), e, 0, n);
    assert NumberedFrom(e, n) == e;
    NextIndexFree(acc);
    forall i, j | 0 <= i < j < |acc'|
      ensures acc'[i].0 != acc'[j].0
    {
      if j == |acc| {
        assert acc'[i] == acc[i];
      }
    }
  }

  /** The merge invariant: integer entries of `src` are appended after those
      of `acc` with fresh consecutive keys, and keys stay distinct. */
  lemma {:induction false} MergeIntoInts(acc: PhpArray, src: PhpArray)
    requires Numbered(acc) && UniqueKeys(acc)
    ensures Ints(MergeInto(acc, src)) == Ints(acc) + NumberedFrom(Ints(src), |Ints(acc)|)
    ensures Numbered(MergeInto(acc, src)) && UniqueKeys(MergeInto(acc, src))
    decreases |src|
  {
    if |src| == 0 {
      assert NumberedFrom(Ints(src), |Ints(acc)|) == [];
    } else if src[0].0.IntKey? {
      MergeIntoIntsIntStep(acc, src);
    } else {
      var acc' := Put(acc, src[0].0, src[0].1);
      assert MergeInto(acc, src) == MergeInto(acc', src[1..]);
      assert Ints(src) == Ints(src[1..]);
      IntsPutStr(acc, src[0].0, src[0].1);
      PutKeepsUnique(acc, src[0].0, src[0].1);
      MergeIntoInts(acc', src[1..]);
    }
  }

  lemma {:induction false} MergeIntoIntsIntStep(acc: PhpArray, src: PhpArray)
    requires Numbered(acc) && UniqueKeys(acc)
    requires |src| > 0 && src[0].0.IntKey?
    ensures Ints(MergeInto(acc, src)) == Ints(acc) + NumberedFrom(Ints(src), |Ints(acc)|)
    ensures Numbered(MergeInto(acc, src)) && UniqueKeys(MergeInto(acc, src))
    decreases |src|, 0
  {
    var n := |Ints(acc)|;
    var e: PhpArray := [(IntKey(n), src[0].1)];
    var acc' := acc + e;
    MergeIntoIntUnfold(acc, src);
    AppendNextInt(acc, src[0].1);
    MergeIntoInts(acc', src[1..]);
    NumberedIntsCons(src, n);
    AppendAssoc(Ints(acc), e, NumberedFrom(Ints(src[1..]), n + 1));
  }

  lemma MergeIntoIntUnfold(acc: PhpArray, src: PhpArray)
    requires |src| > 0 && src[0].0.IntKey?
    ensures MergeInto(acc, src) == MergeInto(acc + [(IntKey(|Ints(acc)|), src[0].1)], src[1..])
  {
  }

  lemma AppendAssoc(a: PhpArray, b: PhpArray, c: PhpArray)
    ensures (a + b) + c == a + (b + c)
  {
  }

  lemma NumberedIntsCons(src: PhpArray, n: int)
    requires |src| > 0 && src[0].0.IntKey?
    ensures NumberedFrom(Ints(src), n) == [(IntKey(n), src[0].1)] + NumberedFrom(Ints(src[1..]), n + 1)
  {
    assert Ints(src) == [src[0]] + Ints(src[1..]);
    NumberedFromCons(src[0], Ints(src[1..]), n);
  }

  lemma NumberedFromCons(x: (Key, Value), rest: PhpArray, n: int)
    ensures NumberedFrom([x] + rest, n) == [(IntKey(n), x.1)] + NumberedFrom(rest, n + 1)
  {
    assert ([x] + rest)[1..] == rest;
  }

  lemma {:induction false} NumberedFromAppend(a: PhpArray, b: PhpArray, n: int, m: int)
    requires m == n + |a|
    ensures NumberedFrom(a + b, n) == NumberedFrom(a, n) + NumberedFrom(b, m)
    decreases |a|
  {
    if |a| == 0 {
      assert a + b == b;
    } else {
      assert (a + b)[1..] == a[1..] + b;
      NumberedFromAppend(a[1..], b, n + 1, m);
    }
  }

  lemma {:induction false} LookupStrAppendInt(acc: PhpArray, s: string, n: int, v: Value)
    ensures Lookup(acc + [(IntKey(n), v)], StrKey(s)) == Lookup(acc, StrKey(s))
    decreases |acc|
  {
    if |acc| > 0 {
      assert (acc + [(IntKey(n), v)])[1..] == acc[1..] + [(IntKey(n), v)];
      LookupStrAppendInt(acc[1..], s, n, v);
    }
  }

  lemma {:induction false} LookupTail(src: PhpArray, k: Key)
    requires |src| > 0 && src[0].0 != k
    ensures HasKey(src, k) <==> HasKey(src[1..], k)
    ensures Lookup(src, k) == Lookup(src[1..], k)
  {
    if HasKey(src, k) {
      var i :| 0 <= i < |src| && src[i].0 == k;
      assert src[1..][i - 1].0 == k;
    }
  }

  /** The merge invariant for string keys: a key present in `src` takes its
      value from `src`, any other keeps its value in `acc`. */
  lemma {:induction false} MergeIntoStr(acc: PhpArray, src: PhpArray, s: string)
    requires UniqueKeys(src)
    ensures Lookup(MergeInto(acc, src), StrKey(s)) ==
            if HasKey(src, StrKey(s)) then Lookup(src, StrKey(s)) else Lookup(acc, StrKey(s))
    decreases |src|
  {
    if |src| > 0 {
      var (k, v) := src[0];
      var acc' :=
        if k.IntKey? then acc + [(IntKey(|Ints(acc)|), v)] else Put(acc, k, v);
      assert UniqueKeys(src[1..]);
      MergeIntoStr(acc', src[1..], s);
      if k.IntKey? {
        LookupStrAppendInt(acc, s, |Ints(acc)|, v);
        LookupTail(src, StrKey(s));
      } else if k == StrKey(s) {
        forall i | 0 <= i < |src[1..]|
          ensures src[1..][i].0 != StrKey(s)
        {
          assert src[1..][i] == src[i + 1];
        }
      } else {
        LookupTail(src, StrKey(s));
      }
    }
  }

  /** `array_merge($a, $b)` is a valid PHP array whose integer entries are
      those of `$a` followed by those of `$b`, renumbered from zero. */
  lemma MergeInts(a: PhpArray, b: PhpArray)
    requires UniqueKeys(a) && UniqueKeys(b)
    ensures UniqueKeys(Merge(a, b)) && Numbered(Merge(a, b))
    ensures Ints(Merge(a, b)) == NumberedFrom(Ints(a) + Ints(b), 0)
  {
    var empty: PhpArray := [];
    assert Ints(empty) == [];
    assert Numbered(empty) && UniqueKeys(empty);
    MergeIntoInts(empty, a);
    var m := MergeInto(empty, a);
    assert Ints(m) == NumberedFrom(Ints(a), 0);
    MergeIntoInts(m, b);
    var r := MergeInto(m, b);
    assert Merge(a, b) == r;
    assert |Ints(m)| == |Ints(a)|;
    assert Ints(r) == NumberedFrom(Ints(a), 0) + NumberedFrom(Ints(b), |Ints(a)|);
    NumberedFromAppend(Ints(a), Ints(b), 0, |Ints(a)|);
  }

  /** A string key of `array_merge($a, $b)` takes its value from `$b` when
      `$b` has it and from `$a` otherwise; no other string key appears. */
  lemma MergeStr(a: PhpArray, b: PhpArray, s: string)
    requires UniqueKeys(a) && UniqueKeys(b)
    ensures Lookup(Merge(a, b), StrKey(s)) ==
      (if HasKey(b, StrKey(s)) then Lookup(b, StrKey(s)) else Lookup(a, StrKey(s)))
  {
    MergeIntoStr([], a, s);
    MergeIntoStr(MergeInto([], a), b, s);
  }

  /** Merging a list into nothing gives the list back. */
  lemma {:induction false} MergeIntoEmptyList(b: PhpArray)
    requires Numbered(b) && Ints(b) == b
    ensures MergeInto([], b) == b
  {
    MergeIntoListPrefix(b, 0);
  }

  lemma {:induction false} MergeIntoListPrefix(b: PhpArray, i: nat)
    requires Numbered(b) && Ints(b) == b && i <= |b|
    ensures MergeInto(b[..i], b[i..]) == b
    decreases |b| - i
  {
    if i < |b| {
      assert b[i] in Ints(b);
      IntsAreInts(b);
      assert b[i].0.IntKey?;
      var pre := b[..i];
      assert Ints(pre) == pre by {
        assert b == b[..i] + b[i..];
        IntsAppend(b[..i], b[i..]);
        IntsAllInts(b, i);
      }
      assert b[i].0 == IntKey(i) by {
        NumberedFromAt(Ints(b), 0, i);
      }
      assert pre + [(IntKey(|Ints(pre)|), b[i].1)] == b[..i + 1];
      assert b[i..][1..] == b[i + 1..];
      MergeIntoListPrefix(b, i + 1);
    } else {
      assert b[..i] == b;
    }
  }

  lemma {:induction false} IntsAllInts(b: PhpArray, i: nat)
    requires Ints(b) == b && i <= |b|
    ensures Ints(b[..i]) == b[..i]
  {
    IntsAreInts(b);
    AllIntsFixed(b[..i]);
  }

  lemma {:induction false} AllIntsFixed(a: PhpArray)
    requires forall e :: e in a ==> e.0.IntKey?
    ensures Ints(a) == a
    decreases |a|
  {
    if |a| > 0 {
      assert a[0] in a;
      assert forall e :: e in a[1..] ==> e in a;
      AllIntsFixed(a[1..]);
      assert a == [a[0]] + a[1..];
    }
  }

  /** The base case the SOAP argument shaping relies on: merging a plain list
      (keys 0, 1, …) with no defaults gives the list back. */
  lemma MergeEmptyLeft(b: PhpArray)
    requires Numbered(b) && Ints(b) == b
    ensures Merge([], b) == b
  {
    MergeIntoEmptyList(b);
  }

  /** `array_unshift` puts `v` at key 0 and shifts every integer entry of `a`
      up by one; string keys keep their values. */
  lemma UnshiftSpec(a: PhpArray, v: Value)
    requires UniqueKeys(a)
    ensures UniqueKeys(Unshift(a, v))
    ensures Ints(Unshift(a, v)) == [(IntKey(0), v)] + NumberedFrom(Ints(a), 1)
    ensures forall s :: Lookup(Unshift(a, v), StrKey(s)) == Lookup(a, StrKey(s))
  {
    var one: PhpArray := [(IntKey(0), v)];
    assert Ints(one) == one;
    MergeInts(one, a);
    assert NumberedFrom(one + Ints(a), 0) == [(IntKey(0), v)] + NumberedFrom(Ints(a), 1);
    forall s ensures Lookup(Unshift(a, v), StrKey(s)) == Lookup(a, StrKey(s)) {
      MergeStr(one, a, s);
      if !HasKey(a, StrKey(s)) {
        assert Lookup(one, StrKey(s)) == None;
      }
    }
  }
}

=== FILE: ldap_service.dfy ===
/** The LDAP service: `configure` checks the options, connects and binds
    (anonymously in read-only mode, with the login and password otherwise);
    a call `foo(...)` runs the extension's `ldap_foo` with the connection
    prepended to the arguments. The LDAP extension is a parameter. */
module LdapService {
  import opened Outcomes
  import opened PhpValues
  import opened ArrayMerge
  import opened Responses
  import S = Service
  import Serialization

  const ErrHostRequired: string := "LDAP host is not specified"
  const ErrLoginRequired: string := "LDAP login is not specified"
  const ErrPasswordRequired: string := "LDAP password is not specified"
  const ErrConnect: string := "Could not connect to Active Directory"
  const ErrBind: string := "Could not bind to Active Directory"

  /** The fields: the port (null until a numeric one is configured), the
      read-only flag and the connection (null before `configure`, false
      after a failed bind). */
  datatype LdapBackend = LdapBackend(port: Value, readOnly: bool, client: Value)

  function InitialBackend(): (b: LdapBackend)
    ensures b.port == Null && !b.readOnly && b.client == Null
  {
    LdapBackend(Null, false, Null)
  }

  /** How `ldap_bind` is called. */
  datatype BindMode = Anonymous | Credentials(login: Value, password: Value)

  /** The extension: `ldap_connect`, `ldap_bind`, and calling a function by
      name with positional arguments. */
  datatype LdapExt = LdapExt(
    connect: (Value, Value) -> Value,
    bind: (Value, BindMode) -> Value,
    call: (string, PhpArray) -> Result<Value>)

  /** The option checks before connecting, as a new backend or the first
      error. The port and read-only options are applied even when a later
      check fails. */
  function CheckOptions(b: LdapBackend, config: PhpArray): (r: (LdapBackend, Status))
    ensures !HasKey(config, StrKey("host")) ==> r == (b, Raised(ConfigurationErrorException(ErrHostRequired)))
    ensures HasKey(config, StrKey("host")) ==>
              r.0.client == b.client &&
              (r.0.port == if HasKey(config, StrKey("port")) && IsNumeric(LookupOr(config, StrKey("port"), Null))
                           then LookupOr(config, StrKey("port"), Null) else b.port) &&
              (r.0.readOnly == if HasKey(config, StrKey("readOnly"))
                               then FilterBool(LookupOr(config, StrKey("readOnly"), Null)) else b.readOnly)
    ensures HasKey(config, StrKey("host")) ==>
              (r.1.Done? <==> r.0.readOnly || (HasKey(config, StrKey("login")) && HasKey(config, StrKey("password"))))
    ensures HasKey(config, StrKey("host")) && !r.0.readOnly && !HasKey(config, StrKey("login")) ==>
              r.1 == Raised(ConfigurationErrorException(ErrLoginRequired))
    ensures HasKey(config, StrKey("host")) && !r.0.readOnly && HasKey(config, StrKey("login"))
            && !HasKey(config, StrKey("password")) ==>
              r.1 == Raised(ConfigurationErrorException(ErrPasswordRequired))
  {
    if !HasKey(config, StrKey("host")) then (b, Raised(ConfigurationErrorException(ErrHostRequired)))
    else
      var port := LookupOr(config, StrKey("port"), Null);
      var b1 := if HasKey(config, StrKey("port")) && IsNumeric(port) then b.(port := port) else b;
      var b2 := if HasKey(config, StrKey("readOnly"))
                then b1.(readOnly := FilterBool(LookupOr(config, StrKey("readOnly"), Null))) else b1;
      if !b2.readOnly && !HasKey(config, StrKey("login")) then
        (b2, Raised(ConfigurationErrorException(ErrLoginRequired)))
      else if !b2.readOnly && !HasKey(config, StrKey("password")) then
        (b2, Raised(ConfigurationErrorException(ErrPasswordRequired)))
      else (b2, Done)
  }

  /** The bind the configured mode asks for. */
  function BindFor(readOnly: bool, config: PhpArray): (m: BindMode)
    ensures m.Anonymous? <==> readOnly
    ensures !readOnly ==>
              m == Credentials(LookupOr(config, StrKey("login"), Null), LookupOr(config, StrKey("password"), Null))
  {
    if readOnly then Anonymous
    else Credentials(LookupOr(config, StrKey("login"), Null), LookupOr(config, StrKey("password"), Null))
  }

  /** Connecting and binding after the checks passed. */
  function Connect(b: LdapBackend, config: PhpArray, ext: LdapExt): (r: (LdapBackend, Status))
    ensures r.0.port == b.port && r.0.readOnly == b.readOnly
    ensures var link := ext.connect(LookupOr(config, StrKey("host"), Null), b.port);
            (!Truthy(link) ==> r == (b.(client := link), Raised(ErrorException(ErrConnect)))) &&
            (Truthy(link) && !Truthy(ext.bind(link, BindFor(b.readOnly, config))) ==>
               r == (b.(client := Bool(false)), Raised(ErrorException(ErrBind)))) &&
            (r.1.Done? <==> Truthy(link) && Truthy(ext.bind(link, BindFor(b.readOnly, config)))) &&
            (r.1.Done? ==> r.0.client == link)
  {
    var link := ext.connect(LookupOr(config, StrKey("host"), Null), b.port);
    var b1 := b.(client := link);
    if !Truthy(link) then (b1, Raised(ErrorException(ErrConnect)))
    else if !Truthy(ext.bind(link, BindFor(b.readOnly, config))) then
      (b1.(client := Bool(false)), Raised(ErrorException(ErrBind)))
    else (b1, Done)
  }

  /** `configure($config)`. */
  function Configure(s: S.State<LdapBackend>, config: PhpArray, ext: LdapExt,
                     storeOf: Value -> S.Store): (r: (S.State<LdapBackend>, Status))
    ensures var (b1, checked) := CheckOptions(s.backend, config);
            (checked.Raised? ==> r == (s.(backend := b1), checked)) &&
            (checked.Done? && Connect(b1, config, ext).1.Raised? ==>
               r == (s.(backend := Connect(b1, config, ext).0), Connect(b1, config, ext).1)) &&
            (checked.Done? && Connect(b1, config, ext).1.Done? ==>
               r == S.Configure(s.(backend := Connect(b1, config, ext).0), config, storeOf))
    ensures r.1.Done? ==> S.IsConfigured(r.0) && Truthy(r.0.backend.client)
    ensures r.1.Raised? ==> r.0.configured == s.configured
  {
    var (b1, checked) := CheckOptions(s.backend, config);
    if checked.Raised? then (s.(backend := b1), checked)
    else
      var (b2, connected) := Connect(b1, config, ext);
      if connected.Raised? then (s.(backend := b2), connected)
      else S.Configure(s.(backend := b2), config, storeOf)
  }

  /** `implementation($method, $args)`: runs `ldap_<method>` with the
      connection first; every `\Exception`, the envelope's own included,
      becomes a failure envelope carrying its message. */
  function Implementation(b: LdapBackend, name: string, args: PhpArray, ext: LdapExt): (r: (LdapBackend, Result<Response>))
    ensures r.0 == b
    ensures r.1.Err? ==> r.1.error.FatalError? && ext.call("ldap_" + name, Unshift(args, b.client)) == Err(r.1.error)
    ensures r.1.Ok? && IsOk(r.1.value) ==>
              ext.call("ldap_" + name, Unshift(args, b.client)) == Ok(GetContent(r.1.value)) && Valid(r.1.value)
    ensures r.1.Ok? && !IsOk(r.1.value) ==>
              exists msg :: r.1.value == Response(false, Null, Str(msg), Null)
    ensures var call := ext.call("ldap_" + name, Unshift(args, b.client));
            (call.Err? ==> r.1 == Caught(call.error)) &&
            (call.Ok? && Serialization.IsSerializable(call.value) ==> r.1 == Ok(Response(true, call.value, Null, Null))) &&
            (call.Ok? && !Serialization.IsSerializable(call.value) ==>
               r.1 == Ok(Response(false, Null, Str(ErrBodyNotSerializable), Null)))
  {
    match ext.call("ldap_" + name, Unshift(args, b.client))
    case Err(e) => (b, Caught(e))
    case Ok(raw) =>
      match Success(raw)
      case Ok(response) => (b, Ok(response))
      case Err(e) => (b, Caught(e))
  }

  /** The service's `catch (\Exception $e)`. */
  function Caught(e: Exception): (r: Result<Response>)
    ensures IsException(e) ==> r == Ok(Response(false, Null, Str(e.message), Null))
    ensures !IsException(e) ==> r == Err(e)
  {
    if IsException(e) then Failure(Null, Str(e.message), Null) else Err(e)
  }

  /** The hooks the dispatcher runs for this service; the arguments are
      passed through unchanged. */
  function Hooks(digest: Value -> S.Digest, ext: LdapExt): (h: S.Hooks<LdapBackend>)
    ensures h.className == "ITMH\\ServiceTools\\Services\\LdapService"
    ensures forall b, a :: h.createArgs(b, a) == Ok(a)
    ensures forall b, m, a :: h.implementation(b, m, a) == Implementation(b, m, a, ext)
  {
    S.Hooks("ITMH\\ServiceTools\\Services\\LdapService", digest,
            (b, a) => S.IdentityArgs(b, a),
            (b, m, a) => Implementation(b, m, a, ext))
  }

  /** The extension function receives the connection as its first
      positional argument, followed by the caller's positional arguments
      renumbered from 1; named arguments keep their values. */
  lemma ConnectionComesFirst(b: LdapBackend, args: PhpArray, key: string)
    requires UniqueKeys(args)
    ensures var full := Unshift(args, b.client);
            UniqueKeys(full) &&
            Ints(full) == [(IntKey(0), b.client)] + NumberedFrom(Ints(args), 1) &&
            Lookup(full, StrKey(key)) == Lookup(args, StrKey(key))
  {
    UnshiftSpec(args, b.client);
  }

  /** A read-only configuration needs no credentials and binds
      anonymously. */
  lemma ReadOnlySkipsCredentials(b: LdapBackend, host: Value, flag: string)
    requires flag == "yes" || flag == "on" || flag == "true" || flag == "1"
    ensures var config := [(StrKey("host"), host), (StrKey("readOnly"), Str(flag))];
            var (b', st) := CheckOptions(b, config);
            st == Done && b'.readOnly && BindFor(b'.readOnly, config) == Anonymous
  {
    var config := [(StrKey("host"), host), (StrKey("readOnly"), Str(flag))];
    assert Lookup(config, StrKey("readOnly")) == Some(Str(flag));
    FilterBoolWords(flag);
  }

  /** Without the read-only flag a missing login is reported, before the
      missing password. */
  lemma MissingLoginReportedFirst(host: Value)
    ensures var (b', st) := CheckOptions(InitialBackend(), [(StrKey("host"), host)]);
            st == Raised(ConfigurationErrorException(ErrLoginRequired))
  {
    var config := [(StrKey("host"), host)];
    assert config[0].0 == StrKey("host");
    assert !HasKey(config, StrKey("readOnly")) && !HasKey(config, StrKey("login"));
    assert !CheckOptions(InitialBackend(), config).0.readOnly;
  }

  /** A failed re-configuration does not undo an earlier one: when the bind
      fails the service stays configured but holds `false` as its
      connection, and later calls pass `false` to the extension. */
  lemma FailedBindKeepsConfiguredFlag(s: S.State<LdapBackend>, config: PhpArray, ext: LdapExt, storeOf: Value -> S.Store)
    requires S.IsConfigured(s)
    requires CheckOptions(s.backend, config).1.Done?
    requires var b1 := CheckOptions(s.backend, config).0;
             var link := ext.connect(LookupOr(config, StrKey("host"), Null), b1.port);
             Truthy(link) && !Truthy(ext.bind(link, BindFor(b1.readOnly, config)))
    ensures var (s', st) := Configure(s, config, ext, storeOf);
            st == Raised(ErrorException(ErrBind)) && S.IsConfigured(s') && s'.backend.client == Bool(false)
  {
  }

  /** Only a PHP `\Error` escapes a call: every other failure of the
      extension function reaches the caller as a failure envelope. */
  lemma OnlyFatalErrorsEscape(digest: Value -> S.Digest, ext: LdapExt, s: S.State<LdapBackend>,
                              name: string, args: PhpArray)
    requires S.IsConfigured(s) && Serialization.SerializeAccepts(S.RawCall(name, args))
    requires forall fn, a :: ext.call(fn, a).Err? ==> IsException(ext.call(fn, a).error)
    ensures S.Call(Hooks(digest, ext), s, name, args).1.Ok?
  {
    var h := Hooks(digest, ext);
    if S.CacheKey(h, name, args) !in s.cache {
      var r := Implementation(s.backend, name, args, ext);
      assert r.1.Ok?;
    }
  }
}

=== FILE: legacy_ldap_service.dfy ===
/** The legacy LDAP service (older namespace). It differs from the current
    one in four ways: the port defaults to 389, connection and bind errors
    are re-thrown as plain `Exception`s carrying the same message, the
    messages are worded differently, and a call `foo(...)` runs the global
    function `foo` itself, not `ldap_foo`. Its base class is not part of
    this model, so `Configure` stops where the base class's `configure`
    would be entered and reports whether it gets there. */
module LegacyLdapService {
  import opened Outcomes
  import opened PhpValues
  import opened ArrayMerge
  import opened LegacyResponses
  import L = LdapService
  import Serialization

  const ErrHostRequired: string := "Ldap host is not specified"
  const ErrLoginRequired: string := "Ldap login is not specified"
  const ErrPasswordRequired: string := "Ldap password is not specified"
  const ErrConnect: string := "Could't connect to Active Directory"
  const ErrBind: string := "Could't bind to Active Directory"

  datatype LegacyLdapBackend = LegacyLdapBackend(port: Value, readOnly: bool, client: Value)

  function InitialBackend(): (b: LegacyLdapBackend)
    ensures b.port == Int(389) && !b.readOnly && b.client == Null
  {
    LegacyLdapBackend(Int(389), false, Null)
  }

  /** The option checks: the same order and conditions as the current
      service, with the legacy messages. */
  function CheckOptions(b: LegacyLdapBackend, config: PhpArray): (r: (LegacyLdapBackend, Status))
    ensures var (c, st) := L.CheckOptions(L.LdapBackend(b.port, b.readOnly, b.client), config);
            r.0 == LegacyLdapBackend(c.port, c.readOnly, c.client) &&
            (st.Done? <==> r.1.Done?) &&
            (st == Raised(ConfigurationErrorException(L.ErrHostRequired)) <==>
               r.1 == Raised(ConfigurationErrorException(ErrHostRequired))) &&
            (st == Raised(ConfigurationErrorException(L.ErrLoginRequired)) <==>
               r.1 == Raised(ConfigurationErrorException(ErrLoginRequired))) &&
            (st == Raised(ConfigurationErrorException(L.ErrPasswordRequired)) <==>
               r.1 == Raised(ConfigurationErrorException(ErrPasswordRequired)))
  {
    if !HasKey(config, StrKey("host")) then (b, Raised(ConfigurationErrorException(ErrHostRequired)))
    else
      var port := LookupOr(config, StrKey("port"), Null);
      var b1 := if HasKey(config, StrKey("port")) && IsNumeric(port) then b.(port := port) else b;
      var b2 := if HasKey(config, StrKey("readOnly"))
                then b1.(readOnly := FilterBool(LookupOr(config, StrKey("readOnly"), Null))) else b1;
      if !b2.readOnly && !HasKey(config, StrKey("login")) then
        (b2, Raised(ConfigurationErrorException(ErrLoginRequired)))
      else if !b2.readOnly && !HasKey(config, StrKey("password")) then
        (b2, Raised(ConfigurationErrorException(ErrPasswordRequired)))
      else (b2, Done)
  }

  /** Connecting and binding inside the `try`: each failure is thrown as a
      configuration error and re-thrown as a plain `Exception` with the
      same message. */
  function Connect(b: LegacyLdapBackend, config: PhpArray, ext: L.LdapExt): (r: (LegacyLdapBackend, Status))
    ensures r.0.port == b.port && r.0.readOnly == b.readOnly
    ensures r.1.Raised? ==> r.1.error.PlainException?
    ensures var (c, st) := L.Connect(L.LdapBackend(b.port, b.readOnly, b.client), config, ext);
            r.0 == LegacyLdapBackend(c.port, c.readOnly, c.client) &&
            (st.Done? <==> r.1.Done?) &&
            (st == Raised(ErrorException(L.ErrConnect)) <==> r.1 == Raised(PlainException(ErrConnect))) &&
            (st == Raised(ErrorException(L.ErrBind)) <==> r.1 == Raised(PlainException(ErrBind)))
  {
    var link := ext.connect(LookupOr(config, StrKey("host"), Null), b.port);
    var b1 := b.(client := link);
    var thrown :=
      if !Truthy(link) then Raised(ConfigurationErrorException(ErrConnect))
      else if !Truthy(ext.bind(link, L.BindFor(b.readOnly, config))) then
        Raised(ConfigurationErrorException(ErrBind))
      else Done;
    var b2 := if thrown == Raised(ConfigurationErrorException(ErrBind)) then b1.(client := Bool(false)) else b1;
    (b2, Rethrown(thrown))
  }

  /** `catch (Exception $e) { throw new Exception($e->getMessage()); }`. */
  function Rethrown(st: Status): (r: Status)
    ensures st.Done? <==> r.Done?
    ensures st.Raised? && IsException(st.error) ==> r == Raised(PlainException(st.error.message))
  {
    if st.Raised? && IsException(st.error) then Raised(PlainException(st.error.message)) else st
  }

  /** `configure($config)` up to the base class: `Done` means the base
      class's `configure` is entered with the same configuration. */
  function Configure(b: LegacyLdapBackend, config: PhpArray, ext: L.LdapExt): (r: (LegacyLdapBackend, Status))
    ensures r.1.Done? ==> Truthy(r.0.client)
    ensures r.1.Done? <==> CheckOptions(b, config).1.Done? && Connect(CheckOptions(b, config).0, config, ext).1.Done?
    ensures CheckOptions(b, config).1.Raised? ==> r == CheckOptions(b, config)
    ensures CheckOptions(b, config).1.Done? ==> r == Connect(CheckOptions(b, config).0, config, ext)
  {
    var (b1, checked) := CheckOptions(b, config);
    if checked.Raised? then (b1, checked)
    else Connect(b1, config, ext)
  }

  /** `implementation($method, $args)`: runs the function named `$method`
      with the connection first; every `\Exception` becomes a failure
      envelope carrying its message. */
  function Implementation(b: LegacyLdapBackend, name: string, args: PhpArray, ext: L.LdapExt): (r: Result<LegacyResponse>)
    ensures r.Err? ==> r.error.FatalError? && ext.call(name, Unshift(args, b.client)) == Err(r.error)
    ensures r.Ok? && IsOk(r.value) ==>
              ext.call(name, Unshift(args, b.client)) == Ok(GetContent(r.value)) && Valid(r.value)
    ensures r.Ok? && !IsOk(r.value) ==> exists msg :: r.value == LegacyResponse(false, Null, Str(msg))
    ensures var call := ext.call(name, Unshift(args, b.client));
            (call.Err? ==> r == Caught(call.error)) &&
            (call.Ok? && Serialization.IsSerializable(call.value) ==> r == Ok(LegacyResponse(true, call.value, Null))) &&
            (call.Ok? && !Serialization.IsSerializable(call.value) ==>
               r == Ok(LegacyResponse(false, Null, Str(ErrBodyNotSerializable))))
  {
    match ext.call(name, Unshift(args, b.client))
    case Err(e) => Caught(e)
    case Ok(raw) =>
      match Success(raw)
      case Ok(response) => Ok(response)
      case Err(e) => Caught(e)
  }

  function Caught(e: Exception): (r: Result<LegacyResponse>)
    ensures IsException(e) ==> r == Ok(LegacyResponse(false, Null, Str(e.message)))
    ensures !IsException(e) ==> r == Err(e)
  {
    if IsException(e) then Failure(Null, Str(e.message)) else Err(e)
  }

  /** The legacy and current services call different functions for the same
      method: the current one prefixes `ldap_`, the legacy one does not,
      and otherwise they pass the same arguments. */
  lemma LegacyCallsMethodVerbatim(b: LegacyLdapBackend, name: string, args: PhpArray, ext: L.LdapExt)
    ensures var cur := L.Implementation(L.LdapBackend(b.port, b.readOnly, b.client), name, args, ext).1;
            var leg := Implementation(b, name, args, L.LdapExt(ext.connect, ext.bind, (fn, a) => ext.call("ldap_" + fn, a)));
            (cur.Ok? <==> leg.Ok?) &&
            (cur.Ok? ==> cur.value.isSuccess == leg.value.isSuccess && cur.value.content == leg.value.content
                         && cur.value.errorMessage == leg.value.error)
  {
  }

  /** Every error from connecting or binding reaches the caller as a plain
      `Exception`, never as the configuration error thrown inside. */
  lemma ConnectErrorsArePlain(b: LegacyLdapBackend, config: PhpArray, ext: L.LdapExt)
    requires CheckOptions(b, config).1.Done?
    ensures var st := Configure(b, config, ext).1;
            st.Raised? ==> st == Raised(PlainException(ErrConnect)) || st == Raised(PlainException(ErrBind))
  {
  }
}

=== FILE: legacy_pinba.dfy ===
/** The legacy timer helper: no configuration; `start` takes the type and
    target as arguments. The guards of `stop` and `info` are the current
    helper's. */
module LegacyPinba {
  import opened PhpValues
  import Pinba

  datatype LegacyPinba = LegacyPinba(enabled: bool)

  /** `new Pinba()`: availability is computed once and never changed. */
  function New(extensionLoaded: bool, iniEnabled: Value): (p: LegacyPinba)
    ensures p.enabled <==> extensionLoaded && Truthy(iniEnabled)
  {
    LegacyPinba(extensionLoaded && Truthy(iniEnabled))
  }

  function IsEnabled(p: LegacyPinba): bool { p.enabled }

  /** The same availability, seen through the current helper. */
  function AsCurrent(p: LegacyPinba): Pinba.Pinba {
    Pinba.Pinba(p.enabled, [], false)
  }

  /** `start($type, $target, $more)`: null when disabled, otherwise what
      `pinba_timer_start` returns for the given type and target. */
  function Start(p: LegacyPinba, typ: Value, target: Value, more: PhpArray,
                 timerStart: (Value, Value) -> Value): (h: Value)
    ensures !IsEnabled(p) ==> h == Null
    ensures IsEnabled(p) ==>
      h == timerStart(Arr([(StrKey("type"), typ), (StrKey("target"), target)]), Arr(more))
  {
    if !IsEnabled(p) then Null
    else timerStart(Arr([(StrKey("type"), typ), (StrKey("target"), target)]), Arr(more))
  }

  /** `stop($resource)`. */
  function Stop(p: LegacyPinba, handle: Value, timerStop: Value -> Value): (r: Value)
    ensures !(handle.Resource? && IsEnabled(p)) ==> r == Bool(true)
    ensures r == Pinba.Stop(AsCurrent(p), handle, timerStop)
  {
    if !handle.Resource? || !IsEnabled(p) then Bool(true) else timerStop(handle)
  }

  /** `info($resource)`. */
  function Info(p: LegacyPinba, handle: Value, timerInfo: Value -> Value): (r: Value)
    ensures !(handle.Resource? && IsEnabled(p)) ==> r == Arr([])
    ensures r == Pinba.Info(AsCurrent(p), handle, timerInfo)
  {
    if !handle.Resource? || !IsEnabled(p) then Arr([]) else timerInfo(handle)
  }

  /** With the extension off the legacy helper never consults it either;
      the legacy test's null timer, `true` stop and array info follow. */
  lemma LegacyDisabledIsNoOp(p: LegacyPinba, typ: Value, target: Value, more: PhpArray,
                             start1: (Value, Value) -> Value, start2: (Value, Value) -> Value,
                             stop1: Value -> Value, info1: Value -> Value)
    requires !IsEnabled(p)
    ensures Start(p, typ, target, more, start1) == Start(p, typ, target, more, start2) == Null
    ensures Stop(p, Start(p, typ, target, more, start1), stop1) == Bool(true)
    ensures Info(p, Start(p, typ, target, more, start1), info1) == Arr([])
  {
  }
}

=== FILE: legacy_responses.dfy ===
/** The legacy response envelope (older namespace): the same closure check
    and factories, but three fields only — there is no error code. */
module LegacyResponses {
  import opened Outcomes
  import opened PhpValues
  import opened Serialization

  const ErrBodyNotSerializable: string := "Response body is not serializable"

  datatype LegacyResponse = LegacyResponse(isSuccess: bool, content: Value, error: Value)

  predicate Valid(r: LegacyResponse) {
    IsSerializable(r.content)
  }

  /** The private constructor: the serialisability check comes first. */
  function Construct(isSuccess: bool, body: Value, error: Value): (r: Result<LegacyResponse>)
    ensures r.Ok? <==> IsSerializable(body)
    ensures r.Err? ==> r.error == ErrorException(ErrBodyNotSerializable)
    ensures r.Ok? ==> r.value == LegacyResponse(isSuccess, body, error) && Valid(r.value)
  {
    if !IsSerializable(body) then Err(ErrorException(ErrBodyNotSerializable))
    else Ok(LegacyResponse(isSuccess, body, error))
  }

  /** `Response::success($body)`. */
  function Success(body: Value): (r: Result<LegacyResponse>)
    ensures r.Ok? <==> !exists path: seq<nat> :: ClosureAt(body, path)
    ensures r.Err? ==> r.error == ErrorException(ErrBodyNotSerializable)
    ensures r.Ok? ==> IsOk(r.value) && GetContent(r.value) == body && GetError(r.value) == Null
                      && Valid(r.value)
  {
    SerializableIffNoReachableClosure(body);
    Construct(true, body, Null)
  }

  /** `Response::failure($body, $error)`; pass `Null` for an omitted
      argument. */
  function Failure(body: Value, error: Value): (r: Result<LegacyResponse>)
    ensures r.Ok? <==> !exists path: seq<nat> :: ClosureAt(body, path)
    ensures r.Err? ==> r.error == ErrorException(ErrBodyNotSerializable)
    ensures r.Ok? ==> !IsOk(r.value) && GetContent(r.value) == body && GetError(r.value) == error
                      && Valid(r.value)
  {
    SerializableIffNoReachableClosure(body);
    Construct(false, body, error)
  }

  /** The three getters: each reads back the field the constructor set. */
  function IsOk(r: LegacyResponse): (ok: bool)
    ensures ok == r.isSuccess
  {
    r.isSuccess
  }

  function GetContent(r: LegacyResponse): (v: Value)
    ensures v == r.content
  {
    r.content
  }

  function GetError(r: LegacyResponse): (v: Value)
    ensures v == r.error
  {
    r.error
  }

  /** An object body is a leaf for the legacy walk too: a closure kept in an
      object's properties passes, the closure itself does not. */
  lemma LegacyObjectsAreLeaves(cls: string, props: seq<(Key, Value)>, k: Key, closure: Value)
    requires IsClosure(closure) && cls != "Closure"
    ensures Success(Obj(cls, props + [(k, closure)])).Ok?
    ensures Success(closure) == Err(ErrorException(ErrBodyNotSerializable))
  {
    ObjectsAreLeaves(cls, props, k, closure);
  }
}

=== FILE: outcomes.dfy ===
/** Failure-carrying results shared by every module: the PHP exceptions the
    core raises or catches, an optional value, and the result of an operation
    that either produces a value or raises one of those exceptions. */
module Outcomes {

  datatype Option<+T> = None | Some(value: T)

  /** The exception classes that cross the core's boundary, each with the
      message `getMessage()` would return. `FatalError` stands for PHP's
      `\Error` hierarchy (type errors, calls on null): it is NOT an
      `\Exception`, so `catch (\Exception $e)` lets it through. */
  datatype Exception =
    | ConfigurationErrorException(message: string)
    | ErrorException(message: string)
    | PlainException(message: string)
    | SoapFault(message: string, faultCode: string)
    | InvalidParameterException(message: string)
    | FatalError(message: string)

  /** True for every class derived from PHP's `\Exception`. */
  predicate IsException(e: Exception) {
    !e.FatalError?
  }

  /** A call that returns a value or raises. */
  datatype Result<+T> = Ok(value: T) | Err(error: Exception)

  /** A call that returns nothing or raises. */
  datatype Status = Done | Raised(error: Exception)
}

=== FILE: php_values.dfy ===
/** PHP values as the core sees them: scalars, ordered arrays with integer or
    string keys, objects (a class name plus properties) and resources. The
    PHP conversions the core relies on (truthiness, `filter_var` with
    FILTER_VALIDATE_BOOLEAN, `is_numeric`, `array_key_exists`) are defined
    here once. */
module PhpValues {
  import opened Outcomes

  /** PHP normalises every array key to an integer or a string. */
  datatype Key = IntKey(n: int) | StrKey(s: string)

  datatype Value =
    | Null
    | Bool(b: bool)
    | Int(i: int)
    | Str(s: string)
    | Arr(entries: seq<(Key, Value)>)
    | Obj(cls: string, props: seq<(Key, Value)>)
    | Resource(id: nat)

  /** An ordered PHP array: entries in insertion order. */
  type PhpArray = seq<(Key, Value)>

  /** `array_key_exists($k, $a)`. */
  predicate HasKey(a: PhpArray, k: Key) {
    exists i :: 0 <= i < |a| && a[i].0 == k
  }

  /** Every PHP array has pairwise distinct keys. */
  predicate UniqueKeys(a: PhpArray) {
    forall i, j :: 0 <= i < j < |a| ==> a[i].0 != a[j].0
  }

  /** `$a[$k]` when the key exists. */
  function Lookup(a: PhpArray, k: Key): (r: Option<Value>)
    ensures r.Some? <==> HasKey(a, k)
    ensures r.Some? ==> (k, r.value) in a
  {
    if |a| == 0 then None
    else if a[0].0 == k then Some(a[0].1)
    else
      var r := Lookup(a[1..], k);
      assert HasKey(a[1..], k) ==> HasKey(a, k) by {
        if HasKey(a[1..], k) {
          var i :| 0 <= i < |a[1..]| && a[1..][i].0 == k;
          assert a[i + 1].0 == k;
        }
      }
      r
  }

  /** `$a[$k]` with PHP's null for a missing key replaced by `d`. */
  function LookupOr(a: PhpArray, k: Key, d: Value): (r: Value)
    ensures HasKey(a, k) ==> Some(r) == Lookup(a, k)
    ensures !HasKey(a, k) ==> r == d
  {
    match Lookup(a, k)
    case Some(v) => v
    case None => d
  }

  /** `array_key_exists($k, $v)` on an arbitrary value: PHP 5/7 warns and
      returns null (falsy) when `$v` is not an array. */
  predicate HasKeyIn(v: Value, k: Key) {
    v.Arr? && HasKey(v.entries, k)
  }

  /** `$a[$k] = $v`: an existing key keeps its position, a new key is
      appended. */
  function Put(a: PhpArray, k: Key, v: Value): (r: PhpArray)
    ensures Lookup(r, k) == Some(v)
    ensures forall k' :: k' != k ==> Lookup(r, k') == Lookup(a, k')
    ensures !HasKey(a, k) ==> r == a + [(k, v)]
    ensures |r| == if HasKey(a, k) then |a| else |a| + 1
  {
    if |a| == 0 then [(k, v)]
    else if a[0].0 == k then [(k, v)] + a[1..]
    else
      HasKeyTail(a, k);
      [a[0]] + Put(a[1..], k, v)
  }

  /** Past a first entry with another key, the key is present exactly when
      it is present in the rest. */
  lemma HasKeyTail(a: PhpArray, k: Key)
    requires |a| > 0 && a[0].0 != k
    ensures HasKey(a, k) <==> HasKey(a[1..], k)
  {
    if HasKey(a[1..], k) {
      var i :| 0 <= i < |a[1..]| && a[1..][i].0 == k;
      assert a[i + 1].0 == k;
    }
    if HasKey(a, k) {
      var i :| 0 <= i < |a| && a[i].0 == k;
      assert a[1..][i - 1].0 == k;
    }
  }

  /** PHP's conversion to boolean (`if ($v)`, `!$v`, `&&`). */
  predicate Truthy(v: Value) {
    match v
    case Null => false
    case Bool(b) => b
    case Int(i) => i != 0
    case Str(s) => s != "" && s != "0"
    case Arr(es) => |es| > 0
    case Obj(_, _) => true
    case Resource(_) => true
  }

  function LowerAscii(c: char): char {
    if 'A' <= c <= 'Z' then (c as int + 32) as char else c
  }

  function Lower(s: string): (r: string)
    ensures |r| == |s|
  {
    seq(|s|, i requires 0 <= i < |s| => LowerAscii(s[i]))
  }

  /** The characters the boolean filter trims from both ends. */
  predicate FilterSpace(c: char) {
    c == ' ' || c == '\t' || c == '\r' || c == '\n' || c == 11 as char
  }

  function TrimFilterSpace(s: string): (r: string)
    ensures |r| <= |s|
    ensures |r| > 0 ==> !FilterSpace(r[0]) && !FilterSpace(r[|r| - 1])
    decreases |s|
  {
    if |s| > 0 && FilterSpace(s[0]) then TrimFilterSpace(s[1..])
    else if |s| > 0 && FilterSpace(s[|s| - 1]) then TrimFilterSpace(s[..|s| - 1])
    else s
  }

  /** `filter_var($v, FILTER_VALIDATE_BOOLEAN)` without FILTER_NULL_ON_FAILURE:
      "1", "true", "on" and "yes" (any case, surrounding blanks ignored) are
      true; everything else, including values that fail the filter, is
      false. A boolean or integer is first converted to its string form. */
  predicate FilterBool(v: Value) {
    match v
    case Bool(b) => b
    case Int(i) => i == 1
    case Str(s) =>
      var t := Lower(TrimFilterSpace(s));
      t == "1" || t == "true" || t == "on" || t == "yes"
    case _ => false
  }

  predicate IsDigit(c: char) {
    '0' <= c <= '9'
  }

  predicate LeadingSpace(c: char) {
    c == ' ' || c == '\t' || c == '\n' || c == '\r' || c == 11 as char || c == 12 as char
  }

  /** The first index at or after `i` that is not a leading blank. */
  function SkipSpace(s: string, i: nat): (j: nat)
    requires i <= |s|
    ensures i <= j <= |s|
    ensures forall k :: i <= k < j ==> LeadingSpace(s[k])
    ensures j < |s| ==> !LeadingSpace(s[j])
    decreases |s| - i
  {
    if i < |s| && LeadingSpace(s[i]) then SkipSpace(s, i + 1) else i
  }

  /** The first index at or after `i` that is not a decimal digit. */
  function SkipDigits(s: string, i: nat): (j: nat)
    requires i <= |s|
    ensures i <= j <= |s|
    ensures forall k :: i <= k < j ==> IsDigit(s[k])
    ensures j < |s| ==> !IsDigit(s[j])
    decreases |s| - i
  {
    if i < |s| && IsDigit(s[i]) then SkipDigits(s, i + 1) else i
  }

  /** Where an optional sign at `i` ends. */
  function SkipSign(s: string, i: nat): (j: nat)
    requires i <= |s|
    ensures i <= j <= |s|
  {
    if i < |s| && (s[i] == '+' || s[i] == '-') then i + 1 else i
  }

  /** Where an optional exponent `e[+-]digits` at `i` ends; an `e` not
      followed by digits is not an exponent. */
  function SkipExponent(s: string, i: nat): (j: nat)
    requires i <= |s|
    ensures i <= j <= |s|
  {
    if i < |s| && (s[i] == 'e' || s[i] == 'E') then
      var p := SkipSign(s, i + 1);
      var q := SkipDigits(s, p);
      if q > p then q else i
    else i
  }

  /** A numeric string in the sense of PHP 5/7 `is_numeric`: optional leading
      blanks, an optional sign, digits with an optional decimal point (at
      least one digit overall), an optional exponent, and nothing after. */
  predicate NumericString(s: string) {
    var start := SkipSign(s, SkipSpace(s, 0));
    var intEnd := SkipDigits(s, start);
    var fracEnd := if intEnd < |s| && s[intEnd] == '.' then SkipDigits(s, intEnd + 1) else intEnd;
    var digitCount := (intEnd - start) + (if fracEnd > intEnd then fracEnd - intEnd - 1 else 0);
    digitCount > 0 && SkipExponent(s, fracEnd) == |s|
  }

  /** `is_numeric($v)` (floats are not part of this model). */
  predicate IsNumeric(v: Value) {
    match v
    case Int(_) => true
    case Str(s) => NumericString(s)
    case _ => false
  }

  lemma NumericAcceptsPort()
    ensures IsNumeric(Str("389")) && IsNumeric(Int(0))
  {
    assert SkipSpace("389", 0) == 0;
    assert SkipDigits("389", 3) == 3;
    assert SkipDigits("389", 2) == 3;
    assert SkipDigits("389", 1) == 3;
    assert SkipDigits("389", 0) == 3;
    assert SkipExponent("389", 3) == 3;
  }

  lemma NumericAcceptsSignedExponent()
    ensures IsNumeric(Str(" -1.5e3"))
  {
    var t := " -1.5e3";
    assert SkipSpace(t, 1) == 1;
    assert SkipSpace(t, 0) == 1;
    assert SkipSign(t, 1) == 2;
    assert SkipDigits(t, 3) == 3;
    assert SkipDigits(t, 2) == 3;
    assert SkipDigits(t, 5) == 5;
    assert SkipDigits(t, 4) == 5;
    assert SkipSign(t, 6) == 6;
    assert SkipDigits(t, 7) == 7;
    assert SkipDigits(t, 6) == 7;
    assert SkipExponent(t, 5) == 7;
  }

  lemma NumericRejectsTrailingBlank()
    ensures !IsNumeric(Str("389 "))
  {
    var u := "389 ";
    assert SkipSpace(u, 0) == 0;
    assert SkipDigits(u, 3) == 3;
    assert SkipDigits(u, 2) == 3;
    assert SkipDigits(u, 1) == 3;
    assert SkipDigits(u, 0) == 3;
    assert SkipExponent(u, 3) == 3;
  }

  lemma NumericRejectsNonNumbers()
    ensures !IsNumeric(Str("ldap")) && !IsNumeric(Str("."))
    ensures !IsNumeric(Bool(true)) && !IsNumeric(Null)
  {
    assert SkipSpace("ldap", 0) == 0;
    assert SkipDigits("ldap", 0) == 0;
    assert SkipSpace(".", 0) == 0;
    assert SkipDigits(".", 0) == 0;
    assert SkipDigits(".", 1) == 1;
  }

  /** The words the boolean filter accepts, whatever their case and
      surrounding blanks. */
  lemma FilterBoolAccepts()
    ensures FilterBool(Str(" Yes ")) && FilterBool(Str("TRUE")) && FilterBool(Int(1))
  {
    assert TrimFilterSpace(" Yes ") == "Yes" by {
      assert TrimFilterSpace(" Yes ") == TrimFilterSpace("Yes ");
      assert TrimFilterSpace("Yes ") == TrimFilterSpace("Yes");
    }
    assert Lower("Yes") == "yes";
    assert TrimFilterSpace("TRUE") == "TRUE";
    assert Lower("TRUE") == "true";
  }

  /** Everything else filters to false rather than failing. */
  lemma FilterBoolRejects()
    ensures !FilterBool(Str("no")) && !FilterBool(Str("maybe")) && !FilterBool(Int(2)) && !FilterBool(Null)
  {
    assert TrimFilterSpace("no") == "no";
    assert Lower("no") == "no";
    assert TrimFilterSpace("maybe") == "maybe";
    assert Lower("maybe") == "maybe";
  }

  /** The four lower-case words are accepted as they are. */
  lemma FilterBoolWords(flag: string)
    requires flag == "yes" || flag == "on" || flag == "true" || flag == "1"
    ensures FilterBool(Str(flag))
  {
    assert TrimFilterSpace(flag) == flag;
    assert Lower(flag) == flag;
  }
}

=== FILE: pinba.dfy ===
/** The current timer helper. Availability is decided once, at construction,
    from the extension being loaded and its ini switch; with the extension
    off, or with a handle that is not a resource, `start`, `stop` and `info`
    take a fixed path that never touches the extension. The extension's own
    functions are parameters. */
module Pinba {
  import opened Outcomes
  import opened PhpValues

  const ErrTypeRequired: string := "Type required"
  const ErrHostRequired: string := "Target host name required"

  /** The helper's fields. `config` starts as PHP null, which reads like an
      empty array here. */
  datatype Pinba = Pinba(enabled: bool, config: PhpArray, configured: bool)

  /** `new Pinba()`: `extension_loaded('pinba') && ini_get('pinba.enabled')`. */
  function New(extensionLoaded: bool, iniEnabled: Value): (p: Pinba)
    ensures p.enabled <==> extensionLoaded && Truthy(iniEnabled)
    ensures !IsConfigured(p)
  {
    Pinba(extensionLoaded && Truthy(iniEnabled), [], false)
  }

  /** `isConfigured()`: the flag `configure` sets. */
  function IsConfigured(p: Pinba): (b: bool)
    ensures b == p.configured
  {
    p.configured
  }

  function IsEnabled(p: Pinba): bool { p.enabled }

  /** `configure($config)`: refuses a config that CONTAINS `type`, then one
      that contains `target`, and otherwise stores it. The guard fires on
      presence, exactly as the code is written. */
  function Configure(p: Pinba, config: PhpArray): (r: Result<Pinba>)
    ensures HasKey(config, StrKey("type")) ==> r == Err(ConfigurationErrorException(ErrTypeRequired))
    ensures !HasKey(config, StrKey("type")) && HasKey(config, StrKey("target")) ==>
              r == Err(ConfigurationErrorException(ErrHostRequired))
    ensures r.Ok? <==> !HasKey(config, StrKey("type")) && !HasKey(config, StrKey("target"))
    ensures r.Ok? ==> IsConfigured(r.value) && r.value.config == config
    ensures r.Ok? ==> IsEnabled(r.value) == IsEnabled(p)
  {
    if HasKey(config, StrKey("type")) then Err(ConfigurationErrorException(ErrTypeRequired))
    else if HasKey(config, StrKey("target")) then Err(ConfigurationErrorException(ErrHostRequired))
    else Ok(p.(config := config, configured := true))
  }

  /** Whether a timer call reaches the extension. */
  predicate Reaches(p: Pinba, handle: Value) {
    handle.Resource? && IsEnabled(p)
  }

  /** `start($tags)`: null when disabled, otherwise what the extension's
      `pinba_timer_start` returns for the configured type and target. */
  function Start(p: Pinba, tags: PhpArray, timerStart: (Value, Value) -> Value): (h: Value)
    ensures !IsEnabled(p) ==> h == Null
  {
    if !IsEnabled(p) then Null
    else
      var typeAndTarget := [(StrKey("type"), LookupOr(p.config, StrKey("type"), Null)),
                            (StrKey("target"), LookupOr(p.config, StrKey("target"), Null))];
      timerStart(Arr(typeAndTarget), Arr(tags))
  }

  /** `stop($resource)`: true unless the handle is a resource and the
      extension is on. */
  function Stop(p: Pinba, handle: Value, timerStop: Value -> Value): (r: Value)
    ensures !Reaches(p, handle) ==> r == Bool(true)
    ensures Reaches(p, handle) ==> r == timerStop(handle)
  {
    if !handle.Resource? || !IsEnabled(p) then Bool(true) else timerStop(handle)
  }

  /** `info($resource)`: an empty array unless the handle is a resource and
      the extension is on. */
  function Info(p: Pinba, handle: Value, timerInfo: Value -> Value): (r: Value)
    ensures !Reaches(p, handle) ==> r == Arr([])
    ensures Reaches(p, handle) ==> r == timerInfo(handle)
  {
    if !handle.Resource? || !IsEnabled(p) then Arr([]) else timerInfo(handle)
  }

  /** With the extension off the three calls never consult it: any two
      extension implementations give the same results, and the handle
      `start` returns makes `stop` report success and `info` report
      nothing. */
  lemma DisabledIsNoOp(p: Pinba, tags: PhpArray, handle: Value,
                       start1: (Value, Value) -> Value, start2: (Value, Value) -> Value,
                       stop1: Value -> Value, stop2: Value -> Value,
                       info1: Value -> Value, info2: Value -> Value)
    requires !IsEnabled(p)
    ensures Start(p, tags, start1) == Start(p, tags, start2) == Null
    ensures Stop(p, handle, stop1) == Stop(p, handle, stop2) == Bool(true)
    ensures Info(p, handle, info1) == Info(p, handle, info2) == Arr([])
    ensures Stop(p, Start(p, tags, start1), stop1) == Bool(true)
    ensures Info(p, Start(p, tags, start1), info1) == Arr([])
  {
  }

  /** No sequence of `configure` calls changes availability. */
  lemma {:induction false} EnabledIsFixed(p: Pinba, configs: seq<PhpArray>)
    ensures IsEnabled(ConfigureAll(p, configs)) == IsEnabled(p)
    decreases |configs|
  {
    if |configs| > 0 {
      match Configure(p, configs[0]) {
        case Ok(p') => EnabledIsFixed(p', configs[1..]);
        case Err(_) => EnabledIsFixed(p, configs[1..]);
      }
    }
  }

  /** Applies `configure` to each config in turn, keeping the helper as it
      was when a call throws. */
  function ConfigureAll(p: Pinba, configs: seq<PhpArray>): Pinba
    decreases |configs|
  {
    if |configs| == 0 then p
    else
      match Configure(p, configs[0])
      case Ok(p') => ConfigureAll(p', configs[1..])
      case Err(_) => ConfigureAll(p, configs[1..])
  }

  /** A consequence of the presence-triggered guard: a configured helper
      never holds a `type` or `target`, so with the extension on `start`
      always sends null for both. */
  lemma ConfiguredHasNoTypeOrTarget(p: Pinba, config: PhpArray, tags: PhpArray, timerStart: (Value, Value) -> Value)
    requires Configure(p, config).Ok?
    ensures var q := Configure(p, config).value;
      IsEnabled(q) ==>
        Start(q, tags, timerStart) ==
        timerStart(Arr([(StrKey("type"), Null), (StrKey("target"), Null)]), Arr(tags))
  {
  }
}

=== FILE: responses.dfy ===
/** The current response envelope: an immutable record built only through
    the `success` and `failure` factories, which refuse a body that holds a
    closure. The accessors are the record's fields; nothing updates them. */
module Responses {
  import opened Outcomes
  import opened PhpValues
  import opened Serialization

  const ErrBodyNotSerializable: string := "Response body is not serializable"

  /** Success flag, content, error message and error code. PHP allows any
      value for the last two; an omitted one is null. */
  datatype Response = Response(isSuccess: bool, content: Value, errorMessage: Value, errorCode: Value)

  /** What every constructed envelope satisfies. */
  predicate Valid(r: Response) {
    IsSerializable(r.content)
  }

  /** The private constructor: the serialisability check comes first. */
  function Construct(isSuccess: bool, body: Value, errorMessage: Value, errorCode: Value): (r: Result<Response>)
    ensures r.Ok? <==> IsSerializable(body)
    ensures r.Err? ==> r.error == ErrorException(ErrBodyNotSerializable)
    ensures r.Ok? ==> r.value == Response(isSuccess, body, errorMessage, errorCode) && Valid(r.value)
  {
    if !IsSerializable(body) then Err(ErrorException(ErrBodyNotSerializable))
    else Ok(Response(isSuccess, body, errorMessage, errorCode))
  }

  /** `Response::success($body)`. */
  function Success(body: Value): (r: Result<Response>)
    ensures r.Ok? <==> !exists path: seq<nat> :: ClosureAt(body, path)
    ensures r.Err? ==> r.error == ErrorException(ErrBodyNotSerializable)
    ensures r.Ok? ==> IsOk(r.value) && GetContent(r.value) == body
                      && GetError(r.value) == Null && GetErrorCode(r.value) == Null
                      && Valid(r.value)
  {
    SerializableIffNoReachableClosure(body);
    Construct(true, body, Null, Null)
  }

  /** `Response::failure($body, $errorMessage, $errorCode)`; pass `Null`
      for an omitted argument. */
  function Failure(body: Value, errorMessage: Value, errorCode: Value): (r: Result<Response>)
    ensures r.Ok? <==> !exists path: seq<nat> :: ClosureAt(body, path)
    ensures r.Err? ==> r.error == ErrorException(ErrBodyNotSerializable)
    ensures r.Ok? ==> !IsOk(r.value) && GetContent(r.value) == body
                      && GetError(r.value) == errorMessage && GetErrorCode(r.value) == errorCode
                      && Valid(r.value)
  {
    SerializableIffNoReachableClosure(body);
    Construct(false, body, errorMessage, errorCode)
  }

  /** The four getters: each reads back the field the constructor set. */
  function IsOk(r: Response): (ok: bool)
    ensures ok == r.isSuccess
  {
    r.isSuccess
  }

  function GetContent(r: Response): (v: Value)
    ensures v == r.content
  {
    r.content
  }

  function GetError(r: Response): (v: Value)
    ensures v == r.errorMessage
  {
    r.errorMessage
  }

  function GetErrorCode(r: Response): (v: Value)
    ensures v == r.errorCode
  {
    r.errorCode
  }

  /** Both factories accept and refuse exactly the same bodies. */
  lemma FactoriesAgreeOnBodies(body: Value, msg: Value, code: Value)
    ensures Success(body).Ok? <==> Failure(body, msg, code).Ok?
  {
  }

  /** A closure anywhere inside nested arrays is refused by both factories,
      and the refusal carries the fixed message. */
  lemma NestedClosureRefused(outer: seq<(Key, Value)>, inner: seq<(Key, Value)>, k: Key, k': Key, closure: Value, msg: Value, code: Value)
    requires IsClosure(closure)
    ensures Success(Arr(outer + [(k, Arr(inner + [(k', closure)]))])) == Err(ErrorException(ErrBodyNotSerializable))
    ensures Failure(Arr(outer + [(k, Arr(inner + [(k', closure)]))]), msg, code) == Err(ErrorException(ErrBodyNotSerializable))
  {
    var innerEs := inner + [(k', closure)];
    assert innerEs[|innerEs| - 1].1 == closure;
    assert !IsSerializable(Arr(innerEs));
    var es := outer + [(k, Arr(innerEs))];
    assert es[|es| - 1].1 == Arr(innerEs);
  }
}

=== FILE: serialization.dfy ===
/** The cache-storability check both Response envelopes run at construction:
    `array_walk_recursive` over `[$body]` flags any leaf that is a `Closure`
    object. The walk descends through arrays only; every other value,
    objects included, is a leaf. */
module Serialization {
  import opened PhpValues

  /** `is_object($e) && get_class($e) === 'Closure'`. */
  predicate IsClosure(v: Value) {
    v.Obj? && v.cls == "Closure"
  }

  /** The flag `isSerializable` computes: no leaf the walk visits is a
      closure. */
  predicate IsSerializable(v: Value): (ok: bool)
    ensures IsClosure(v) ==> !ok
    ensures !v.Arr? && !IsClosure(v) ==> ok
    ensures v.Arr? && ok ==> forall i :: 0 <= i < |v.entries| ==> IsSerializable(v.entries[i].1)
    decreases v
  {
    match v
    case Arr(es) => forall i :: 0 <= i < |es| ==> IsSerializable(es[i].1)
    case _ => !IsClosure(v)
  }

  /** An independent description of the walk: following `path` (entry
      positions, through arrays only) from `v` reaches a closure. */
  predicate ClosureAt(v: Value, path: seq<nat>)
    decreases |path|
  {
    if |path| == 0 then IsClosure(v)
    else v.Arr? && path[0] < |v.entries| && ClosureAt(v.entries[path[0]].1, path[1..])
  }

  /** A body passes the check exactly when no closure is reachable from it
      through nested arrays. */
  lemma {:induction false} SerializableIffNoReachableClosure(v: Value)
    ensures IsSerializable(v) <==> !exists path: seq<nat> :: ClosureAt(v, path)
    decreases v
  {
    if IsSerializable(v) {
      forall path: seq<nat> ensures !ClosureAt(v, path) {
        NoClosureOnPath(v, path);
      }
    } else {
      var path := ClosurePath(v);
      assert exists p: seq<nat> :: ClosureAt(v, p);
    }
  }

  lemma {:induction false} NoClosureOnPath(v: Value, path: seq<nat>)
    requires IsSerializable(v)
    ensures !ClosureAt(v, path)
    decreases |path|
  {
    if |path| > 0 && v.Arr? && path[0] < |v.entries| {
      NoClosureOnPath(v.entries[path[0]].1, path[1..]);
    }
  }

  /** A path to a closure inside a body that fails the check. */
  lemma {:induction false} ClosurePath(v: Value) returns (path: seq<nat>)
    requires !IsSerializable(v)
    ensures ClosureAt(v, path)
    decreases v
  {
    match v {
      case Arr(es) =>
        var i :| 0 <= i < |es| && !IsSerializable(es[i].1);
        assert es[i] in es;
        var rest := ClosurePath(es[i].1);
        path := [i] + rest;
        assert path[1..] == rest;
      case _ =>
        path := [];
    }
  }

  /** Objects are leaves: a closure held in an object's properties is never
      inspected, while the same closure in an array is. */
  lemma ObjectsAreLeaves(cls: string, props: seq<(Key, Value)>, k: Key, closure: Value)
    requires IsClosure(closure) && cls != "Closure"
    ensures IsSerializable(Obj(cls, props + [(k, closure)]))
    ensures !IsSerializable(Arr(props + [(k, closure)]))
  {
    var es := props + [(k, closure)];
    assert es[|es| - 1].1 == closure;
  }

  /** What `serialize` accepts: it descends through arrays AND object
      properties and throws on the first closure it meets. */
  predicate SerializeAccepts(v: Value)
    decreases v
  {
    match v
    case Arr(es) => forall i :: 0 <= i < |es| ==> SerializeAccepts(es[i].1)
    case Obj(cls, props) => cls != "Closure" && forall i :: 0 <= i < |props| ==> SerializeAccepts(props[i].1)
    case _ => true
  }

  /** Every value `serialize` accepts passes the envelope check; the
      converse fails for a closure kept inside an object (see
      `ObjectsAreLeaves`), which the check lets through and `serialize`
      refuses. */
  lemma {:induction false} SerializeAcceptsPassesCheck(v: Value)
    requires SerializeAccepts(v)
    ensures IsSerializable(v)
    decreases v
  {
    match v {
      case Arr(es) =>
        forall i | 0 <= i < |es|
          ensures IsSerializable(es[i].1)
        {
          assert es[i] in es;
          SerializeAcceptsPassesCheck(es[i].1);
        }
      case _ =>
    }
  }

  lemma CheckWeakerThanSerialize(cls: string, closure: Value)
    requires IsClosure(closure) && cls != "Closure"
    ensures IsSerializable(Obj(cls, [(IntKey(0), closure)]))
    ensures !SerializeAccepts(Obj(cls, [(IntKey(0), closure)]))
  {
    assert [(IntKey(0), closure)][0].1 == closure;
  }
}

=== FILE: service.dfy ===
/** The abstract dispatcher every service extends. Every call to an
    undeclared method goes through `Call`: it derives a cache key from the
    method name and the arguments exactly as given, lets the subclass
    rewrite the arguments, refuses to go on before `configure` has
    succeeded, answers from the cache when it can and otherwise asks the
    subclass's implementation, storing whatever envelope comes back.

    The subclass hooks, the digest function and the stores a cacher option
    stands for are parameters; logging and timer bracketing are not
    modelled. */
module Service {
  import opened Outcomes
  import opened PhpValues
  import opened Serialization
  import opened Responses
  import P = Pinba

  const ErrClosureSerialization: string := "Serialization of 'Closure' is not allowed"

  /** `sprintf('Service "%s" is not configured', get_class($this))`. */
  function NotConfiguredMessage(className: string): (m: string)
    ensures |m| == |className| + 28
    ensures m[..9] == "Service \"" && m[|m| - 19..] == "\" is not configured"
    ensures m[9..|m| - 19] == className
  {
    "Service \"" + className + "\" is not configured"
  }

  /** The digest of a call (`md5(serialize(...))`). */
  type Digest = string

  /** A cache item: the stored envelope and the lifetime it was stored with. */
  datatype Entry = Entry(response: Response, ttl: Value)

  type Store = map<Digest, Entry>

  /** The service's fields. `backendCalls` records every invocation of the
      implementation, in order, so that "answered from the cache" can be
      stated. */
  datatype State<B> = State(
    configured: bool,
    cache: Store,
    expires: PhpArray,
    pinba: P.Pinba,
    backend: B,
    backendCalls: seq<(string, PhpArray)>)

  /** What a concrete service supplies: its class name, the digest
      function, and its `createArgs` and `implementation` overrides. */
  datatype Hooks<!B> = Hooks(
    className: string,
    digest: Value -> Digest,
    createArgs: (B, PhpArray) -> Result<PhpArray>,
    implementation: (B, string, PhpArray) -> (B, Result<Response>))

  /** The constructor: an empty in-memory pool, no lifetimes, a fresh timer
      helper, not configured. */
  function Initial<B>(extensionLoaded: bool, iniEnabled: Value, backend: B): (s: State<B>)
    ensures !IsConfigured(s) && s.cache == map[] && s.expires == []
    ensures s.backendCalls == []
    ensures !P.IsConfigured(s.pinba) && (P.IsEnabled(s.pinba) <==> extensionLoaded && Truthy(iniEnabled))
    ensures s.backend == backend
  {
    State(false, map[], [], P.New(extensionLoaded, iniEnabled), backend, [])
  }

  /** `isConfigured()`: the flag `configure` sets. */
  function IsConfigured<B>(s: State<B>): (b: bool)
    ensures b == s.configured
  {
    s.configured
  }

  /** The base class's `createArgs`: the arguments unchanged. */
  function IdentityArgs<B>(b: B, args: PhpArray): (r: Result<PhpArray>)
    ensures r == Ok(args)
  {
    Ok(args)
  }

  /** `func_get_args()` inside `__call($name, $args)`. */
  function RawCall(name: string, args: PhpArray): Value {
    Arr([(IntKey(0), Str(name)), (IntKey(1), Arr(args))])
  }

  /** The cache key: a digest of the method name and the arguments as the
      caller passed them, before `createArgs` rewrites them. */
  function CacheKey<B>(h: Hooks<B>, name: string, args: PhpArray): Digest {
    h.digest(RawCall(name, args))
  }

  /** The lifetime a fresh result is stored with: the method's own entry,
      else the `default` entry, else 0. */
  function Ttl(expires: PhpArray, name: string): (t: Value)
    ensures HasKey(expires, StrKey(name)) ==> Some(t) == Lookup(expires, StrKey(name))
    ensures !HasKey(expires, StrKey(name)) && HasKey(expires, StrKey("default")) ==>
              Some(t) == Lookup(expires, StrKey("default"))
    ensures !HasKey(expires, StrKey(name)) && !HasKey(expires, StrKey("default")) ==> t == Int(0)
  {
    var fallback := LookupOr(expires, StrKey("default"), Int(0));
    LookupOr(expires, StrKey(name), fallback)
  }

  /** `__call($name, $args)`. */
  function Call<B>(h: Hooks<B>, s: State<B>, name: string, args: PhpArray): (r: (State<B>, Result<Response>))
    ensures !SerializeAccepts(RawCall(name, args)) ==>
              r == (s, Err(PlainException(ErrClosureSerialization)))
    ensures r.0.configured == s.configured && r.0.expires == s.expires && r.0.pinba == s.pinba
    ensures r.1.Ok? && r.0.backendCalls == s.backendCalls ==> r.0 == s
    ensures |s.backendCalls| <= |r.0.backendCalls| <= |s.backendCalls| + 1
    ensures r.0.backendCalls[..|s.backendCalls|] == s.backendCalls
  {
    var raw := RawCall(name, args);
    if !SerializeAccepts(raw) then (s, Err(PlainException(ErrClosureSerialization)))
    else
      var key := h.digest(raw);
      match h.createArgs(s.backend, args)
      case Err(e) => (s, Err(e))
      case Ok(callArgs) =>
        if !s.configured then (s, Err(ConfigurationErrorException(NotConfiguredMessage(h.className))))
        else if key in s.cache then (s, Ok(s.cache[key].response))
        else
          var (backend', result) := h.implementation(s.backend, name, callArgs);
          var s' := s.(backend := backend', backendCalls := s.backendCalls + [(name, callArgs)]);
          match result
          case Err(e) => (s', Err(e))
          case Ok(response) =>
            (s'.(cache := s.cache[key := Entry(response, Ttl(s.expires, name))]), Ok(response))
  }

  /** `configureCacher`: a cacher object replaces the pool, a `drivers`
      option replaces the pool's driver, and an array `expires` option
      replaces the lifetimes. `storeOf` gives the contents of the store an
      object or a driver list stands for. */
  function ConfigureCacher<B>(s: State<B>, config: PhpArray, storeOf: Value -> Store): (s': State<B>)
    ensures !HasKey(config, StrKey("cacher")) ==> s' == s
    ensures s'.configured == s.configured && s'.pinba == s.pinba && s'.backend == s.backend
    ensures s'.backendCalls == s.backendCalls
    ensures ExpiresOption(config).Some? ==> s'.expires == ExpiresOption(config).value
    ensures ExpiresOption(config).None? ==> s'.expires == s.expires
  {
    match Lookup(config, StrKey("cacher"))
    case None => s
    case Some(c) =>
      if c.Obj? then s.(cache := storeOf(c))
      else if c.Arr? then
        var s1 :=
          match Lookup(c.entries, StrKey("drivers"))
          case Some(drivers) => s.(cache := storeOf(drivers))
          case None => s;
        match Lookup(c.entries, StrKey("expires"))
        case Some(Arr(e)) => s1.(expires := e)
        case _ => s1
      else s
  }

  /** The lifetimes a configuration sets: present only when the `cacher`
      option is an array whose `expires` entry is itself an array. */
  function ExpiresOption(config: PhpArray): Option<PhpArray> {
    match Lookup(config, StrKey("cacher"))
    case Some(Arr(c)) =>
      (match Lookup(c, StrKey("expires"))
       case Some(Arr(e)) => Some(e)
       case _ => None)
    case _ => None
  }

  /** `configurePinba`: when a `pinba` option is present the helper is
      configured with the WHOLE service configuration. */
  function ConfigurePinba<B>(s: State<B>, config: PhpArray): (r: (State<B>, Status))
    ensures !HasKey(config, StrKey("pinba")) ==> r == (s, Done)
    ensures HasKey(config, StrKey("pinba")) && r.1.Done? ==> P.Configure(s.pinba, config) == Ok(r.0.pinba)
    ensures r.1.Raised? ==> r.0 == s && HasKey(config, StrKey("pinba")) && P.Configure(s.pinba, config) == Err(r.1.error)
    ensures r.0 == s.(pinba := r.0.pinba)
  {
    if !HasKey(config, StrKey("pinba")) then (s, Done)
    else
      match P.Configure(s.pinba, config)
      case Ok(p) => (s.(pinba := p), Done)
      case Err(e) => (s, Raised(e))
  }

  /** `configure($config)`: cacher, then timer helper, then the flag. A
      throw keeps the cacher changes already made. */
  function Configure<B>(s: State<B>, config: PhpArray, storeOf: Value -> Store): (r: (State<B>, Status))
    ensures r.1.Done? <==>
              !(HasKey(config, StrKey("pinba")) &&
                (HasKey(config, StrKey("type")) || HasKey(config, StrKey("target"))))
    ensures r.1.Done? ==> IsConfigured(r.0)
    ensures r.1.Raised? ==> IsConfigured(r.0) == IsConfigured(s) && r.1.error.ConfigurationErrorException?
    ensures r.0.backend == s.backend && r.0.backendCalls == s.backendCalls
    ensures P.IsEnabled(r.0.pinba) == P.IsEnabled(s.pinba)
    ensures var c := ConfigureCacher(s, config, storeOf);
            r.0.cache == c.cache && r.0.expires == c.expires
  {
    var s1 := ConfigureCacher(s, config, storeOf);
    var (s2, status) := ConfigurePinba(s1, config);
    if status.Raised? then (s2, status) else (s2.(configured := true), Done)
  }

  /** The cache key is taken from the method name and the arguments as the
      caller gave them: neither the class name nor the argument hook
      affects it, so two services sharing a pool share entries. */
  lemma KeyIgnoresClassAndArgumentHook<B>(h: Hooks<B>, className: string,
                                          createArgs: (B, PhpArray) -> Result<PhpArray>, name: string, args: PhpArray)
    ensures CacheKey(h.(className := className, createArgs := createArgs), name, args) == CacheKey(h, name, args)
    ensures CacheKey(h, name, args) == h.digest(Arr([(IntKey(0), Str(name)), (IntKey(1), Arr(args))]))
  {
  }

  /** Before `configure` succeeds every call that gets past the key and the
      arguments raises the not-configured error, whatever the cache holds
      and whatever the implementation would do; nothing changes. */
  lemma UnconfiguredCallRaises<B>(h: Hooks<B>, s: State<B>, name: string, args: PhpArray)
    requires !IsConfigured(s)
    requires SerializeAccepts(RawCall(name, args)) && h.createArgs(s.backend, args).Ok?
    ensures Call(h, s, name, args) ==
              (s, Err(ConfigurationErrorException(NotConfiguredMessage(h.className))))
  {
  }

  /** The argument hook runs before the configuration check: its error wins
      even on an unconfigured service. */
  lemma ArgumentErrorsComeFirst<B>(h: Hooks<B>, s: State<B>, name: string, args: PhpArray)
    requires SerializeAccepts(RawCall(name, args)) && h.createArgs(s.backend, args).Err?
    ensures Call(h, s, name, args) == (s, Err(h.createArgs(s.backend, args).error))
  {
  }

  /** A cached key is answered from the cache: the stored envelope comes
      back, the implementation is not invoked, nothing changes. */
  lemma CacheHit<B>(h: Hooks<B>, s: State<B>, name: string, args: PhpArray)
    requires IsConfigured(s) && SerializeAccepts(RawCall(name, args))
    requires h.createArgs(s.backend, args).Ok?
    requires CacheKey(h, name, args) in s.cache
    ensures Call(h, s, name, args) == (s, Ok(s.cache[CacheKey(h, name, args)].response))
  {
  }

  /** A missing key invokes the implementation exactly once, with the
      rewritten arguments, and stores the envelope it returns (a failure
      envelope included) under the key of the ORIGINAL arguments with the
      method's lifetime. */
  lemma CacheMiss<B>(h: Hooks<B>, s: State<B>, name: string, args: PhpArray)
    requires IsConfigured(s) && SerializeAccepts(RawCall(name, args))
    requires h.createArgs(s.backend, args).Ok?
    requires CacheKey(h, name, args) !in s.cache
    ensures var callArgs := h.createArgs(s.backend, args).value;
            var (backend', result) := h.implementation(s.backend, name, callArgs);
            var (s', r) := Call(h, s, name, args);
            r == result &&
            s'.backend == backend' &&
            s'.backendCalls == s.backendCalls + [(name, callArgs)] &&
            (result.Ok? ==> s'.cache == s.cache[CacheKey(h, name, args) := Entry(result.value, Ttl(s.expires, name))]) &&
            (result.Err? ==> s'.cache == s.cache)
  {
  }

  /** Repeating a call whose first run produced an envelope returns the same
      envelope from the cache, without invoking the implementation again. */
  lemma SecondCallHits<B>(h: Hooks<B>, s: State<B>, name: string, args: PhpArray)
    requires IsConfigured(s)
    requires Call(h, s, name, args).1.Ok?
    ensures var (s1, r1) := Call(h, s, name, args);
            var (s2, r2) := Call(h, s1, name, args);
            s2 == s1 &&
            (h.createArgs(s1.backend, args).Ok? ==> r2 == r1)
  {
    var (s1, r1) := Call(h, s, name, args);
    var key := CacheKey(h, name, args);
    assert key in s1.cache && s1.cache[key].response == r1.value;
  }

  /** Every stored envelope is a valid one. */
  predicate CacheValid(c: Store) {
    forall k :: k in c ==> Valid(c[k].response)
  }

  /** Calls keep the cache valid, given implementations that only build
      envelopes through the factories. */
  lemma CallKeepsCacheValid<B>(h: Hooks<B>, s: State<B>, name: string, args: PhpArray)
    requires CacheValid(s.cache)
    requires forall b, m, a :: h.implementation(b, m, a).1.Ok? ==> Valid(h.implementation(b, m, a).1.value)
    ensures CacheValid(Call(h, s, name, args).0.cache)
    ensures Call(h, s, name, args).1.Ok? ==> Valid(Call(h, s, name, args).1.value)
  {
  }

  /** Configuration is never undone: a successful `configure` leaves the
      service configured, a failed one leaves the flag as it was, and calls
      never touch it. */
  lemma {:induction false} ConfiguredStaysConfigured<B>(s: State<B>, configs: seq<PhpArray>, storeOf: Value -> Store)
    requires IsConfigured(s)
    ensures IsConfigured(ConfigureEach(s, configs, storeOf))
    decreases |configs|
  {
    if |configs| > 0 {
      ConfiguredStaysConfigured(Configure(s, configs[0], storeOf).0, configs[1..], storeOf);
    }
  }

  /** `configure` applied to each configuration in turn, throws ignored. */
  function ConfigureEach<B>(s: State<B>, configs: seq<PhpArray>, storeOf: Value -> Store): State<B>
    decreases |configs|
  {
    if |configs| == 0 then s else ConfigureEach(Configure(s, configs[0], storeOf).0, configs[1..], storeOf)
  }

  /** The timer helper a successful `configure` stores never carries a type
      or a target of its own: the helper refuses any configuration holding
      either key, so a configured helper reports null for both. */
  lemma ConfiguredPinbaHasNoTarget<B>(s: State<B>, config: PhpArray, storeOf: Value -> Store)
    requires HasKey(config, StrKey("pinba"))
    requires Configure(s, config, storeOf).1.Done?
    ensures var p := Configure(s, config, storeOf).0.pinba;
            P.IsConfigured(p) && p.config == config &&
            !HasKey(p.config, StrKey("type")) && !HasKey(p.config, StrKey("target"))
  {
  }

  /** The cacher options seen by the tests: a driver list with an `expires`
      array, and a ready-made pool object. Both configure the service. */
  lemma CacherConfigsConfigure<B>(s: State<B>, drivers: Value, lifetimes: PhpArray, pool: Value, storeOf: Value -> Store)
    requires pool.Obj?
    ensures var config := [(StrKey("cacher"), Arr([(StrKey("drivers"), drivers), (StrKey("expires"), Arr(lifetimes))]))];
            var (s', st) := Configure(s, config, storeOf);
            st == Done && IsConfigured(s') && s'.expires == lifetimes && s'.cache == storeOf(drivers)
    ensures var (s', st) := Configure(s, [(StrKey("cacher"), pool)], storeOf);
            st == Done && IsConfigured(s') && s'.cache == storeOf(pool) && s'.expires == s.expires
  {
    var c := [(StrKey("drivers"), drivers), (StrKey("expires"), Arr(lifetimes))];
    assert Lookup(c, StrKey("drivers")) == Some(drivers);
    assert Lookup(c, StrKey("expires")) == Some(Arr(lifetimes));
    var config := [(StrKey("cacher"), Arr(c))];
    assert !HasKey(config, StrKey("pinba"));
    assert !HasKey([(StrKey("cacher"), pool)], StrKey("pinba"));
  }
}

=== FILE: soap_service.dfy ===
/** The SOAP service: `configure` builds a client for a WSDL address and
    records default arguments and result mappers; calls are forwarded to
    the client and the raw result is optionally mapped to a class instance
    or an array before it is wrapped in an envelope. The SOAP client and its
    mapping methods are parameters. */
module SoapService {
  import opened Outcomes
  import opened PhpValues
  import opened ArrayMerge
  import opened Responses
  import S = Service
  import Pinba
  import opened Serialization

  const ErrUrlRequired: string := "Soap wsdl url is not specified"
  const ErrDefaultArgsArray: string := "Default args must be an array"
  /** What PHP raises when the merged arguments are not an array and reach
      the logger's context parameter. PHP appends the calling file and line
      ("called in ..."), which the model leaves off. */
  const ErrArgsNotArray: string := "Argument 2 passed to Monolog\\Logger::info() must be of the type array, null given"
  const ErrCallOnNull: string := "Call to a member function on null"

  /** The client object: WSDL address and options as given, the optional
      content type and cURL options, and the sticky strict-mapping flag. */
  datatype Client = Client(
    wsdl: Value,
    soapOptions: Value,
    contentType: Option<Value>,
    curlOptions: Option<Value>,
    strictMapping: bool)

  /** The four mapper tables, keyed by method name (`*` for all methods in
      the two array modes). Each holds whatever the configuration gave. */
  datatype Mapping = Mapping(mapper: Value, strict: Value, asArray: Value, arrayStrict: Value)

  datatype SoapBackend = SoapBackend(client: Option<Client>, mapping: Mapping, defaultArgs: Option<PhpArray>)

  /** The client's behaviour: the remote call, `asClass` and `asArray`. */
  datatype SoapExt = SoapExt(
    call: (Client, string, PhpArray) -> Result<Value>,
    asClass: (Client, Value, string, Value) -> Result<Value>,
    asArray: (Client, Value, bool) -> Result<Value>)

  /** Field defaults: no client, four empty tables, no default arguments. */
  function InitialBackend(): (b: SoapBackend)
    ensures b.client.None? && b.defaultArgs.None?
    ensures b.mapping == Mapping(Arr([]), Arr([]), Arr([]), Arr([]))
  {
    SoapBackend(None, Mapping(Arr([]), Arr([]), Arr([]), Arr([])), None)
  }

  /** How `map` treats a method's raw result. */
  datatype Mode = Raw | AsClass(classMap: Value) | AsArray(keepRoot: bool)

  /** Whether `method` is listed in a table (a non-array table lists
      nothing). */
  predicate Lists(table: Value, name: string) {
    HasKeyIn(table, StrKey(name))
  }

  predicate ListsOrStar(table: Value, name: string) {
    Lists(table, name) || Lists(table, "*")
  }

  /** The mode `map` ends up in: later checks in the source override earlier
      ones, so strict array beats array beats strict class beats class. */
  function SelectMode(m: Mapping, name: string): (r: Mode)
    ensures ListsOrStar(m.arrayStrict, name) ==> r == AsArray(true)
    ensures !ListsOrStar(m.arrayStrict, name) && ListsOrStar(m.asArray, name) ==> r == AsArray(false)
    ensures r.AsClass? <==> !ListsOrStar(m.arrayStrict, name) && !ListsOrStar(m.asArray, name)
                            && (Lists(m.strict, name) || Lists(m.mapper, name))
    ensures r.AsClass? ==> r.classMap == if Lists(m.strict, name) then m.strict else m.mapper
    ensures r == Raw <==> !ListsOrStar(m.arrayStrict, name) && !ListsOrStar(m.asArray, name)
                          && !Lists(m.strict, name) && !Lists(m.mapper, name)
  {
    if ListsOrStar(m.arrayStrict, name) then AsArray(true)
    else if ListsOrStar(m.asArray, name) then AsArray(false)
    else if Lists(m.strict, name) then AsClass(m.strict)
    else if Lists(m.mapper, name) then AsClass(m.mapper)
    else Raw
  }

  /** The selection as the source writes it: four independent checks in
      the order mapper, strict, array, strict array, each later match
      overwriting the class map and the two flags; no class map means the
      raw result is kept. */
  function SequentialMode(m: Mapping, name: string): Mode {
    var (classMap0, asClass0, strictArray0) := (None, true, false);
    var classMap1 := if Lists(m.mapper, name) then Some(m.mapper) else classMap0;
    var classMap2 := if Lists(m.strict, name) then Some(m.strict) else classMap1;
    var (classMap3, asClass3) :=
      if ListsOrStar(m.asArray, name) then (Some(m.asArray), false) else (classMap2, asClass0);
    var (classMap4, asClass4, strictArray4) :=
      if ListsOrStar(m.arrayStrict, name) then (Some(m.arrayStrict), false, true)
      else (classMap3, asClass3, strictArray0);
    if classMap4.None? then Raw
    else if asClass4 then AsClass(classMap4.value)
    else AsArray(strictArray4)
  }

  /** The precedence chain and the source's overwriting sequence agree on
      every mapping and method. */
  lemma SelectModeFollowsSource(m: Mapping, name: string)
    ensures SelectMode(m, name) == SequentialMode(m, name)
  {
  }

  /** `map($method, $raw)`. Listing a method in the strict table switches
      the client to strict mapping for good, even when an array mode wins
      the selection. */
  function Map(b: SoapBackend, name: string, raw: Value, ext: SoapExt): (r: (SoapBackend, Result<Value>))
    ensures r.0.mapping == b.mapping && r.0.defaultArgs == b.defaultArgs
    ensures r.0.client.Some? <==> b.client.Some?
    ensures r.0.client.Some? ==>
              r.0.client.value.strictMapping == (b.client.value.strictMapping || Lists(b.mapping.strict, name))
    ensures SelectMode(b.mapping, name) == Raw && !Lists(b.mapping.strict, name) ==> r == (b, Ok(raw))
    ensures b.client.Some? ==>
              var mode := SelectMode(b.mapping, name);
              var c := r.0.client.value;
              (mode == Raw ==> r.1 == Ok(raw)) &&
              (mode.AsClass? ==> r.1 == ext.asClass(c, raw, name, mode.classMap)) &&
              (mode.AsArray? ==> r.1 == ext.asArray(c, raw, mode.keepRoot))
    ensures b.client.None? ==>
              r.0 == b &&
              (SelectMode(b.mapping, name) != Raw || Lists(b.mapping.strict, name) ==> r.1 == Err(FatalError(ErrCallOnNull))) &&
              (SelectMode(b.mapping, name) == Raw && !Lists(b.mapping.strict, name) ==> r.1 == Ok(raw))
  {
    var mode := SelectMode(b.mapping, name);
    var touched := Lists(b.mapping.strict, name);
    match b.client
    case None =>
      if touched || !mode.Raw? then (b, Err(FatalError(ErrCallOnNull))) else (b, Ok(raw))
    case Some(c) =>
      var c' := if touched then c.(strictMapping := true) else c;
      var b' := b.(client := Some(c'));
      match mode
      case Raw => (b', Ok(raw))
      case AsClass(classMap) => (b', ext.asClass(c', raw, name, classMap))
      case AsArray(keepRoot) => (b', ext.asArray(c', raw, keepRoot))
  }

  /** The remote call through the client; with no client PHP rejects the
      callback with a warning and the result is null. */
  function RemoteCall(b: SoapBackend, name: string, args: PhpArray, ext: SoapExt): (r: Result<Value>)
    ensures b.client.None? ==> r == Ok(Null)
    ensures b.client.Some? ==> r == ext.call(b.client.value, name, args)
  {
    match b.client
    case None => Ok(Null)
    case Some(c) => ext.call(c, name, args)
  }

  /** `implementation($method, $args)`: only a `SoapFault` is turned into a
      failure envelope (no body, the fault's message); any other throw,
      including the envelope's own serialisability error, escapes. */
  function Implementation(b: SoapBackend, name: string, args: PhpArray, ext: SoapExt): (r: (SoapBackend, Result<Response>))
    ensures r.0.mapping == b.mapping && r.0.defaultArgs == b.defaultArgs
    ensures r.0.client.Some? <==> b.client.Some?
    ensures r.1.Err? ==> !r.1.error.SoapFault?
    ensures r.1.Ok? && !IsOk(r.1.value) ==>
              exists f, c :: r.1.value == Response(false, Null, Str(f), Null) &&
                             (RemoteCall(b, name, args, ext) == Err(SoapFault(f, c)) ||
                              (RemoteCall(b, name, args, ext).Ok? &&
                               Map(b, name, RemoteCall(b, name, args, ext).value, ext).1 == Err(SoapFault(f, c))))
    ensures r.1.Ok? && IsOk(r.1.value) ==>
              RemoteCall(b, name, args, ext).Ok? &&
              Map(b, name, RemoteCall(b, name, args, ext).value, ext).1 == Ok(GetContent(r.1.value)) &&
              Valid(r.1.value)
    ensures RemoteCall(b, name, args, ext).Err? ==> r == (b, Caught(RemoteCall(b, name, args, ext).error))
    ensures RemoteCall(b, name, args, ext).Ok? ==>
              var (b', mapped) := Map(b, name, RemoteCall(b, name, args, ext).value, ext);
              r.0 == b' &&
              (mapped.Ok? ==> r.1 == Success(mapped.value)) &&
              (mapped.Err? ==> r.1 == Caught(mapped.error))
  {
    match RemoteCall(b, name, args, ext)
    case Err(e) => (b, Caught(e))
    case Ok(v) =>
      var (b', mapped) := Map(b, name, v, ext);
      match mapped
      case Err(e) => (b', Caught(e))
      case Ok(m) => (b', Success(m))
  }

  /** The service's `catch (SoapFault $fault)`. */
  function Caught(e: Exception): (r: Result<Response>)
    ensures e.SoapFault? ==> r == Ok(Response(false, Null, Str(e.message), Null))
    ensures !e.SoapFault? ==> r == Err(e)
  {
    if e.SoapFault? then Failure(Null, Str(e.message), Null) else Err(e)
  }

  /** `createArgs($args)`: with default arguments configured, a first
      positional argument replaces the whole list, and the defaults are
      merged under it. */
  function CreateArgs(b: SoapBackend, args: PhpArray): (r: Result<PhpArray>)
    ensures b.defaultArgs.None? ==> r == Ok(args)
    ensures b.defaultArgs.Some? && !HasKey(args, IntKey(0)) ==> r == Ok(Merge(b.defaultArgs.value, args))
    ensures b.defaultArgs.Some? && HasKey(args, IntKey(0)) ==>
              match LookupOr(args, IntKey(0), Null)
              case Arr(inner) => r == Ok(Merge(b.defaultArgs.value, inner))
              case _ => r == Err(FatalError(ErrArgsNotArray))
  {
    match b.defaultArgs
    case None => Ok(args)
    case Some(defaults) =>
      var given := if HasKey(args, IntKey(0)) then LookupOr(args, IntKey(0), Null) else Arr(args);
      if given.Arr? then Ok(Merge(defaults, given.entries)) else Err(FatalError(ErrArgsNotArray))
  }

  /** The timer option `configure` adds when the configuration has none. */
  function WithPinbaDefault(config: PhpArray): (r: PhpArray)
    ensures HasKey(r, StrKey("pinba"))
    ensures HasKey(config, StrKey("pinba")) ==> r == config
    ensures !HasKey(config, StrKey("pinba")) ==>
              r == config + [(StrKey("pinba"), Arr([(StrKey("type"), Str("soap")),
                                                    (StrKey("target"), LookupOr(config, StrKey("url"), Null))]))]
    ensures forall k :: k != StrKey("pinba") ==> Lookup(r, k) == Lookup(config, k)
  {
    if HasKey(config, StrKey("pinba")) then config
    else
      Put(config, StrKey("pinba"), Arr([(StrKey("type"), Str("soap")),
                                        (StrKey("target"), LookupOr(config, StrKey("url"), Null))]))
  }

  /** The mapper options of a configuration applied to the tables. */
  function ConfigureMapping(m: Mapping, config: PhpArray): (r: Mapping)
    ensures r.mapper == LookupOr(config, StrKey("__mapper"), m.mapper)
    ensures r.strict == LookupOr(config, StrKey("__mapper_strict"), m.strict)
    ensures r.asArray == LookupOr(config, StrKey("__mapper_array"), m.asArray)
    ensures r.arrayStrict == LookupOr(config, StrKey("__mapper_array_strict"), m.arrayStrict)
  {
    Mapping(
      LookupOr(config, StrKey("__mapper"), m.mapper),
      LookupOr(config, StrKey("__mapper_strict"), m.strict),
      LookupOr(config, StrKey("__mapper_array"), m.asArray),
      LookupOr(config, StrKey("__mapper_array_strict"), m.arrayStrict))
  }

  /** `configure($config)`. `clientFault` is what constructing the client
      for a WSDL address and options throws, if anything. */
  function Configure(s: S.State<SoapBackend>, config: PhpArray,
                     clientFault: (Value, Value) -> Option<Exception>,
                     storeOf: Value -> S.Store): (r: (S.State<SoapBackend>, Status))
    ensures !HasKey(config, StrKey("url")) ==> r == (s, Raised(ConfigurationErrorException(ErrUrlRequired)))
    ensures HasKey(config, StrKey("url")) && HasKey(config, StrKey("defaultArgs"))
            && !LookupOr(config, StrKey("defaultArgs"), Null).Arr?
            && clientFault(LookupOr(config, StrKey("url"), Null), LookupOr(config, StrKey("soapOptions"), Arr([]))).None? ==>
              r.1 == Raised(ConfigurationErrorException(ErrDefaultArgsArray)) && r.0.configured == s.configured
    ensures r.1.Done? ==> S.IsConfigured(r.0) && r.0.backend.client.Some?
    ensures r.1.Done? ==>
              r.0.backend.client.value ==
                Client(LookupOr(config, StrKey("url"), Null), LookupOr(config, StrKey("soapOptions"), Arr([])),
                       Lookup(config, StrKey("contentType")), Lookup(config, StrKey("curlOptions")), false)
    ensures r.1.Done? ==> r.0.backend.mapping == ConfigureMapping(s.backend.mapping, config)
    ensures r.1.Raised? ==> r.0.configured == s.configured
    ensures r.0.backend.client.None? ==> r.0.backend == s.backend
    ensures r.1.Done? <==>
              HasKey(config, StrKey("url")) &&
              clientFault(LookupOr(config, StrKey("url"), Null), LookupOr(config, StrKey("soapOptions"), Arr([]))).None? &&
              (HasKey(config, StrKey("defaultArgs")) ==> LookupOr(config, StrKey("defaultArgs"), Null).Arr?) &&
              !HasKey(config, StrKey("type")) && !HasKey(config, StrKey("target"))
    ensures r.1.Done? && HasKey(config, StrKey("defaultArgs")) ==>
              r.0.backend.defaultArgs.Some? && LookupOr(config, StrKey("defaultArgs"), Null) == Arr(r.0.backend.defaultArgs.value)
    ensures r.1.Done? && !HasKey(config, StrKey("defaultArgs")) ==> r.0.backend.defaultArgs == s.backend.defaultArgs
  {
    if !HasKey(config, StrKey("url")) then (s, Raised(ConfigurationErrorException(ErrUrlRequired)))
    else
      var url := LookupOr(config, StrKey("url"), Null);
      var soapOptions := LookupOr(config, StrKey("soapOptions"), Arr([]));
      match clientFault(url, soapOptions)
      case Some(e) => (s, Raised(e))
      case None =>
        var client := Client(url, soapOptions, Lookup(config, StrKey("contentType")),
                             Lookup(config, StrKey("curlOptions")), false);
        var b1 := s.backend.(client := Some(client));
        match Lookup(config, StrKey("defaultArgs"))
        case Some(d) =>
          if !d.Arr? then (s.(backend := b1), Raised(ConfigurationErrorException(ErrDefaultArgsArray)))
          else Finish(s, b1.(defaultArgs := Some(d.entries)), config, storeOf)
        case None => Finish(s, b1, config, storeOf)
  }

  /** The tail of `configure`: mappers, the timer default, the base class. */
  function Finish(s: S.State<SoapBackend>, b: SoapBackend, config: PhpArray,
                  storeOf: Value -> S.Store): (r: (S.State<SoapBackend>, Status))
    ensures r.0.backend == b.(mapping := ConfigureMapping(b.mapping, config))
    ensures r.1.Done? ==> S.IsConfigured(r.0)
    ensures r.1.Raised? ==> r.0.configured == s.configured
    ensures r.1.Done? <==> !HasKey(config, StrKey("type")) && !HasKey(config, StrKey("target"))
  {
    var b2 := b.(mapping := ConfigureMapping(b.mapping, config));
    PinbaDefaultKeepsTopLevel(config);
    S.Configure(s.(backend := b2), WithPinbaDefault(config), storeOf)
  }

  /** Adding the timer default leaves the top-level `type` and `target` as
      they were. */
  lemma PinbaDefaultKeepsTopLevel(config: PhpArray)
    ensures HasKey(WithPinbaDefault(config), StrKey("type")) <==> HasKey(config, StrKey("type"))
    ensures HasKey(WithPinbaDefault(config), StrKey("target")) <==> HasKey(config, StrKey("target"))
  {
    assert Lookup(WithPinbaDefault(config), StrKey("type")) == Lookup(config, StrKey("type"));
    assert Lookup(WithPinbaDefault(config), StrKey("target")) == Lookup(config, StrKey("target"));
  }

  /** The hooks the dispatcher runs for this service. */
  function Hooks(digest: Value -> S.Digest, ext: SoapExt): (h: S.Hooks<SoapBackend>)
    ensures h.className == "ITMH\\ServiceTools\\Services\\SoapService"
    ensures forall b, a :: h.createArgs(b, a) == CreateArgs(b, a)
    ensures forall b, m, a :: h.implementation(b, m, a) == Implementation(b, m, a, ext)
  {
    S.Hooks("ITMH\\ServiceTools\\Services\\SoapService", digest,
            (b, a) => CreateArgs(b, a),
            (b, m, a) => Implementation(b, m, a, ext))
  }

  /** A configured SOAP service always has a client: configuration only
      succeeds after building one, and neither a call nor a later
      configuration drops it. */
  predicate ClientInvariant(s: S.State<SoapBackend>) {
    s.configured ==> s.backend.client.Some?
  }

  lemma ConfigureKeepsClientInvariant(s: S.State<SoapBackend>, config: PhpArray,
                                      clientFault: (Value, Value) -> Option<Exception>, storeOf: Value -> S.Store)
    requires ClientInvariant(s)
    ensures ClientInvariant(Configure(s, config, clientFault, storeOf).0)
  {
  }

  lemma CallKeepsClientInvariant(digest: Value -> S.Digest, ext: SoapExt, s: S.State<SoapBackend>,
                                 name: string, args: PhpArray)
    requires ClientInvariant(s)
    ensures ClientInvariant(S.Call(Hooks(digest, ext), s, name, args).0)
  {
    var h := Hooks(digest, ext);
    var raw := S.RawCall(name, args);
    if Serialization.SerializeAccepts(raw) && h.createArgs(s.backend, args).Ok? && s.configured
       && S.CacheKey(h, name, args) !in s.cache {
      var callArgs := h.createArgs(s.backend, args).value;
      assert h.implementation(s.backend, name, callArgs).0.client.Some?;
    }
  }

  /** Strict mapping is sticky: once a call has switched the client to it,
      later calls never switch it back. */
  lemma StrictMappingIsSticky(b: SoapBackend, name: string, args: PhpArray, ext: SoapExt)
    requires b.client.Some? && b.client.value.strictMapping
    ensures Implementation(b, name, args, ext).0.client.value.strictMapping
  {
  }

  /** Precedence of the mapper tables when a method is listed in all four:
      the strict array mode wins; a `*` entry in the plain array table beats
      both class tables. */
  lemma ModePrecedence(m: Mapping, name: string)
    ensures Lists(m.arrayStrict, name) ==> SelectMode(m, name) == AsArray(true)
    ensures !ListsOrStar(m.arrayStrict, name) && Lists(m.asArray, "*") ==> SelectMode(m, name) == AsArray(false)
    ensures (!ListsOrStar(m.arrayStrict, name) && !ListsOrStar(m.asArray, name)
             && Lists(m.strict, name) && Lists(m.mapper, name)) ==> SelectMode(m, name) == AsClass(m.strict)
  {
  }

  /** Default arguments: `__call` passes its arguments as a list, so the
      first positional argument is the array of named arguments. A named
      argument of the caller overrides the default of the same name, other
      defaults are kept, and positional entries come after the positional
      defaults, renumbered from 0. */
  lemma DefaultsMerge(b: SoapBackend, args: PhpArray, inner: PhpArray, key: string)
    requires b.defaultArgs.Some? && UniqueKeys(b.defaultArgs.value)
    requires LookupOr(args, IntKey(0), Null) == Arr(inner) && UniqueKeys(inner)
    ensures var defaults := b.defaultArgs.value;
            var r := CreateArgs(b, args);
            r.Ok? && UniqueKeys(r.value) &&
            Lookup(r.value, StrKey(key)) ==
              (if HasKey(inner, StrKey(key)) then Lookup(inner, StrKey(key)) else Lookup(defaults, StrKey(key))) &&
            Ints(r.value) == NumberedFrom(Ints(defaults) + Ints(inner), 0)
  {
    assert HasKey(args, IntKey(0));
    MergeInts(b.defaultArgs.value, inner);
    MergeStr(b.defaultArgs.value, inner, key);
  }

  /** What a call's envelope is when the method's result is kept raw: the
      result in a success envelope when it is serialisable, the fault's
      message in a failure envelope for a `SoapFault`, and any other throw,
      the envelope's own serialisability error included, escapes. */
  lemma RawCallEnvelopes(b: SoapBackend, name: string, args: PhpArray, ext: SoapExt)
    requires b.client.Some? && SelectMode(b.mapping, name) == Raw && !Lists(b.mapping.strict, name)
    ensures var call := ext.call(b.client.value, name, args);
            var r := Implementation(b, name, args, ext).1;
            (call.Ok? && IsSerializable(call.value) ==> r == Ok(Response(true, call.value, Null, Null))) &&
            (call.Ok? && !IsSerializable(call.value) ==> r == Err(ErrorException(ErrBodyNotSerializable))) &&
            (call.Err? && call.error.SoapFault? ==> r == Ok(Response(false, Null, Str(call.error.message), Null))) &&
            (call.Err? && !call.error.SoapFault? ==> r == Err(call.error))
  {
  }

  /** Configuring without a WSDL address raises the url error and leaves the
      service unconfigured. */
  lemma NoWsdlRaises(clientFault: (Value, Value) -> Option<Exception>, storeOf: Value -> S.Store,
                     extensionLoaded: bool, iniEnabled: Value)
    ensures var s := S.Initial(extensionLoaded, iniEnabled, InitialBackend());
            var (s', st) := Configure(s, [], clientFault, storeOf);
            st == Raised(ConfigurationErrorException(ErrUrlRequired)) && !S.IsConfigured(s')
  {
  }

  /** The default timer option is added to the configuration, but the base
      class hands the timer helper the whole configuration, and the helper
      looks for `type` and `target` at its top level only. So after a
      successful `configure` the helper holds that whole configuration, and
      neither the `soap` type nor the address the default names is read. */
  lemma PinbaDefaultIsNeverRead(s: S.State<SoapBackend>, config: PhpArray,
                                clientFault: (Value, Value) -> Option<Exception>, storeOf: Value -> S.Store)
    ensures var (s', st) := Configure(s, config, clientFault, storeOf);
            st.Done? ==>
              Pinba.IsConfigured(s'.pinba) && s'.pinba.config == WithPinbaDefault(config) &&
              !HasKey(s'.pinba.config, StrKey("type")) && !HasKey(s'.pinba.config, StrKey("target"))
  {
    if Configure(s, config, clientFault, storeOf).1.Done? {
      var url := LookupOr(config, StrKey("url"), Null);
      var soapOptions := LookupOr(config, StrKey("soapOptions"), Arr([]));
      var client := Client(url, soapOptions, Lookup(config, StrKey("contentType")),
                           Lookup(config, StrKey("curlOptions")), false);
      var b1 := s.backend.(client := Some(client));
      var b := match Lookup(config, StrKey("defaultArgs"))
        case Some(d) => b1.(defaultArgs := Some(d.entries))
        case None => b1;
      var s2 := s.(backend := b.(mapping := ConfigureMapping(b.mapping, config)));
      S.ConfiguredPinbaHasNoTarget(s2, WithPinbaDefault(config), storeOf);
    }
  }
}
